=== FILE: README.md ===
# Duplicati time parser and backend loader, in Dafny

This project models two parts of Duplicati's C# code and proves properties of the models.

**`Timeparser`** reads duplicity-style time offsets such as `"3D12h"`, `"2W"` or `"now"`, and duplicity file-name time stamps such as `"Tue Oct 14 12:00:00 2008"`.
- `ParseTimeInterval` returns the list of calendar steps it would apply to the offset, in order. Each step is one `AddSeconds`, `AddMinutes`, `AddHours`, `AddDays`, `AddMonths` or `AddYears`.
- It can also return the wall clock (`Now`) or the date the culture's date parser read.
- Otherwise it fails with one of the three scanner exceptions: a segment that is not an integer, an invalid unit letter, or unparsed trailing data.
- `ParseTimeSpan` is the forward parse measured from the epoch.
- The negating overload is proved to be the forward parse with every step negated.
- `ParseDuplicityFileTime` splits the stamp on spaces and reads the month name, day, year and time of day.

**`BackendLoader`** is the backend registry and facade.
- Discovery scans a sequence of assemblies. Each backend type is registered under the protocol key its probe instance reports, and a later registration of a key wins.
- Broken assemblies and the loader's own assembly are passed over.
- The registry is built once.
- `GetBackend` lower-cases the URL's scheme and looks it up.
- A facade is unbound or bound. When unbound it rejects every operation. When bound it forwards each operation to its backend unchanged.

The files:
- `wrappers.dfy`: `Option` and `Result`.
- `text.dfy`: `String.Trim`, ASCII `ToLower`, `IndexOfAny`, and `Split` with `RemoveEmptyEntries`.
- `numbers.dfy`: `int.TryParse`/`long.TryParse` with `NumberStyles.Integer`, and decimal formatting as its partner.
- `timeparser.dfy` and `timeparser_properties.dfy`: the offset parser.
- `filetime_properties.dfy`: the file-time reader.
- `backend_loader.dfy` and `backend_loader_properties.dfy`: the registry.

Exceptions become `Failure` values. The culture-dependent date and time parsers, URL parsing, the file system and the network become function parameters. The integer parses are modelled with the invariant culture's signs, as stated under "## Left out".

## Model

| member | source | states |
|---|---|---|
| Text.TrimBy | Duplicati/Library/Core/Timeparser.cs:72 | `Trim` drops only white space from the two ends, and what is left neither starts nor ends with white space |
| Text.IndexOfAny | Duplicati/Library/Core/Timeparser.cs:70 | the first position at or after `from` that holds a separator, or none when no later position does |
| Text.Split | Duplicati/Library/Core/Timeparser.cs:116 | no part is empty or holds the separator, and the parts together are the text without its separators |
| Text.Layout | Duplicati/Library/Core/Timeparser.cs:116 | every text is the parts `Split` gives it, spaced apart by runs of one or more separators after a leading run; with `Text.SplitSpaced` this makes the parts exactly the maximal runs of characters other than the separator |
| Text.SplitSpaced | Duplicati/Library/Core/Timeparser.cs:116 | tokens spaced apart by runs of one or more separators, with any run before the first and after the last, are split back into exactly the tokens, so runs of separators never merge or create parts |
| Numbers.ParseInteger | Duplicati/Library/Core/Timeparser.cs:74 | `TryParse` with `NumberStyles.Integer` succeeds exactly when the text, with number white space trimmed from both ends, is an optional sign and one or more digits whose value lies in the type's range, and then gives that value |
| Numbers.SignedNumberAccepted | Duplicati/Library/Core/Timeparser.cs:74 | text of that shape with its value in range is accepted with that value |
| Numbers.MisshapenRejected | Duplicati/Library/Core/Timeparser.cs:74 | white space inside a number ("1 2"), a sign after digits ("1-2", "5+") and a doubled sign ("+-1") are rejected |
| Numbers.ParseFormat | Duplicati/Library/Core/Timeparser.cs:58 | every value in range, written in decimal, is parsed back as itself |
| Text.ToLower | Duplicati/Library/Core/Timeparser.cs:54 | the lower-cased text has the same length, and each character is that character lower-cased |
| Timeparser.StepOf | Duplicati/Library/Core/Timeparser.cs:79-104 | a letter of the unit table gives its calendar unit with the signed count times its scale, 'Y' gives years, and every other letter is "Invalid specifier" with that letter |
| Timeparser.Wrap32 | Duplicati/Library/Core/Timeparser.cs:77 | unchecked `int` arithmetic: the result is an `int`, congruent to the exact value modulo 2^32, and equal to it when it fits |
| Timeparser.StepOfAsWritten | Duplicati/Library/Core/Timeparser.cs:77-104 | the switch with 32-bit products: it fails exactly where the exact switch does, with the same error; otherwise it gives the same unit, and its amount is the exact amount wrapped to an `int` |
| Timeparser.Wrap32Times7 | Duplicati/Library/Core/Timeparser.cs:77-94 | wrapping the negated count before multiplying by seven wraps to the same `int` as the exact product |
| Timeparser.Finish | Duplicati/Library/Core/Timeparser.cs:108-109 | after the loop, success exactly when the rest is white space, otherwise "Unparsed data" with the rest |
| Timeparser.Scan | Duplicati/Library/Core/Timeparser.cs:67-109 | a successful scan yields one step per unit letter and never a year step, and the only invalid specifier it reports is 'H' |
| Timeparser.ScanSegment | Duplicati/Library/Core/Timeparser.cs:72-105 | one loop pass keeps the same three guarantees for the text from the segment on |
| Timeparser.ParseTimeInterval | Duplicati/Library/Core/Timeparser.cs:46-112 | empty text leaves the offset unchanged; the result is `Now` exactly for "now" in any case; text that is neither "now" nor a `long` is the culture's date exactly when the culture's parser accepts it |
| Timeparser.SecondsParsed | Duplicati/Library/Core/Timeparser.cs:57-59 | text that `long.TryParse` accepts is one step of that many seconds, negated under negation |
| Timeparser.ScanNegated | Duplicati/Library/Core/Timeparser.cs:70-106 | scanning with `multiplier` -1 gives the steps of the forward scan with every amount negated, and the same exceptions |
| Timeparser.NegateMirrors | Duplicati/Library/Core/Timeparser.cs:49-112 | the negating overload is the forward overload with every step negated, and agrees with it on every other outcome |
| Timeparser.ParseForward | Duplicati/Library/Core/Timeparser.cs:41-44 | the two-argument overload is the one whose mirror image the negating overload gives |
| Timeparser.ParseTimeSpan | Duplicati/Library/Core/Timeparser.cs:35-39 | the span is the forward parse, empty for empty text, and the negating overload is its mirror image |
| Timeparser.MonthNumber | Duplicati/Library/Core/Timeparser.cs:120-124 | a month is found exactly when the trimmed, lower-cased field is in `MONTH_NAMES`, and its number is its position plus one |
| Timeparser.IntOrZero | Duplicati/Library/Core/Timeparser.cs:128 | an ignored `int.TryParse` yields the parsed value, or 0 when parsing fails |
| Timeparser.ParseDuplicityFileTime | Duplicati/Library/Core/Timeparser.cs:114-143 | a stamp is accepted only with at least five fields and a valid date, and then its month is the one the second field names, its day and year are what `int.TryParse` reads from the third and fifth fields, and its time of day is what the time parser reads from the fourth field |
| Timeparser.ReadFields | Duplicati/Library/Core/Timeparser.cs:118-141 | the same guarantees for already split fields, month, day, year and time each tied to its field; an unknown month is reported with text that names no month |
| TimeparserProperties.StepOfTable | Duplicati/Library/Core/Timeparser.cs:79-98 | `s`, `m`, `h`, `D`, `M` give one step of the signed count in their unit; `W` gives seven days per count |
| TimeparserProperties.StepOfHour | Duplicati/Library/Core/Timeparser.cs:102-103 | 'H' reaches the default branch: "Invalid specifier" |
| TimeparserProperties.ScanRendered | Duplicati/Library/Core/Timeparser.cs:70-109 | from any position, segments are read as their steps, left to right, whatever text each count is written as (sign, leading zeros, white space around it), provided it holds no unit letter and trims to an `int`; a trailing text is accepted only when it is white space |
| TimeparserProperties.RenderedInterval | Duplicati/Library/Core/Timeparser.cs:46-112 | any sequence of such count-and-letter segments followed by text is parsed into the segments' steps in order, or reports that text as unparsed |
| TimeparserProperties.CanonicalWellFormed | Duplicati/Library/Core/Timeparser.cs:72-74 | counts written as `int.ToString()` writes them always make readable segments, so the two lemmas above cover them |
| TimeparserProperties.SignedCountReadable | Duplicati/Library/Core/Timeparser.cs:72-74 | a count written with a sign and leading zeros ("+007W") is read as its value |
| TimeparserProperties.RenderedSpan | Duplicati/Library/Core/Timeparser.cs:35-39 | `ParseTimeSpan` reads rendered segments with the signs as written, and the negating overload reads them with every sign flipped |
| TimeparserProperties.LeadingUnitRejected | Duplicati/Library/Core/Timeparser.cs:70-109 | a unit letter in the first position stops the loop at once, so the whole text is unparsed data |
| TimeparserProperties.UpperHourRejected | Duplicati/Library/Core/Timeparser.cs:65-103 | a count followed by 'H' is always "Invalid specifier: H", whatever follows |
| TimeparserProperties.BadSegmentRejected | Duplicati/Library/Core/Timeparser.cs:72-75 | a segment that is not an `int` stops the parse with the segment's trimmed text |
| TimeparserProperties.PlainSeconds | Duplicati/Library/Core/Timeparser.cs:57-59 | any `long` written in decimal is that many seconds, negated under negation |
| TimeparserProperties.AsWrittenAgreesInRange | Duplicati/Library/Core/Timeparser.cs:77-98 | when the scaled count fits an `int`, the 32-bit switch computes the intended step |
| TimeparserProperties.WeekCountWraps | Duplicati/Library/Core/Timeparser.cs:93-94 | "613566757W" is three days as written, instead of 613566757 weeks |
| TimeparserProperties.NegatedMinimumWraps | Duplicati/Library/Core/Timeparser.cs:77 | negating `int.MinValue` gives `int.MinValue`, so the negating overload moves the same way as the forward one |
| FileTimeProperties.CalendarDates | Duplicati/Library/Core/Timeparser.cs:141 | `new DateTime(year, mon, day)` accepts years 1 to 9999, February 29 exactly in Gregorian leap years (not 1900, but 2000), and day 31 exactly in the seven long months |
| FileTimeProperties.FieldsOf | Duplicati/Library/Core/Timeparser.cs:116 | fields spaced apart by runs of one or more spaces are trimmed and split back into the same fields |
| FileTimeProperties.MonthTitleNumber | Duplicati/Library/Core/Timeparser.cs:33 | each capitalised month abbreviation is found as its month number |
| FileTimeProperties.NumberReadBack | Duplicati/Library/Core/Timeparser.cs:128 | a decimal `int` field is read back as its value |
| FileTimeProperties.FieldsRead | Duplicati/Library/Core/Timeparser.cs:118-141 | fields whose month, day, year and time are all read give that date when it exists |
| FileTimeProperties.NoSuchDateRejected | Duplicati/Library/Core/Timeparser.cs:141 | fields that are all read but name a date that does not exist are rejected by the date constructor |
| FileTimeProperties.MonthMissing | Duplicati/Library/Core/Timeparser.cs:120 | a stamp of at most one field fails at reading `parts[1]` |
| FileTimeProperties.UnknownMonthRejected | Duplicati/Library/Core/Timeparser.cs:120-122 | a month field that names no month, in any letter case, is reported with its text |
| FileTimeProperties.DayMissing | Duplicati/Library/Core/Timeparser.cs:128 | a stamp that stops after its month fails at reading `parts[2]` |
| FileTimeProperties.NegativeDayRejected | Duplicati/Library/Core/Timeparser.cs:128-130 | a negative day is reported with the day's text |
| FileTimeProperties.YearMissing | Duplicati/Library/Core/Timeparser.cs:132 | a stamp of three or four fields fails at reading `parts[4]`, before its time is looked at |
| FileTimeProperties.NegativeYearReportsDay | Duplicati/Library/Core/Timeparser.cs:132-134 | a negative year is reported with the day's message and the day's text |
| FileTimeProperties.TimeRejected | Duplicati/Library/Core/Timeparser.cs:137-138 | a time field the time parser refuses is reported with its text |
| FileTimeProperties.UnreadableDayIsZero | Duplicati/Library/Core/Timeparser.cs:126-141 | a non-numeric day is read as 0 and so rejected as the date with day 0, not as an unknown day |
| FileTimeProperties.WeekdayIgnored | Duplicati/Library/Core/Timeparser.cs:116-141 | replacing the weekday field never changes the result |
| FileTimeProperties.StampSplits | Duplicati/Library/Core/Timeparser.cs:116 | a stamp splits into the five fields it was written from, however many spaces separate them |
| FileTimeProperties.StampFieldsRead | Duplicati/Library/Core/Timeparser.cs:118-141 | the fields of such a stamp are read as the date they were written from |
| FileTimeProperties.FileTimeRoundTrip | Duplicati/Library/Core/Timeparser.cs:114-143 | a stamp written from a valid date is read back as that date, whatever its weekday field says and however many spaces separate its fields |
| FileTimeProperties.AsctimeRoundTrip | Duplicati/Library/Core/Timeparser.cs:114-143 | a stamp in the asctime layout, which pads a one-digit day with a second space ("Tue Oct  4 12:00:00 2008"), is read back as its date |
| BackendLoader.Candidates | Duplicati/Library/Backend/BackendLoader/BackendLoader.cs:57-64 | the program directory's assemblies come first, then those of `backends` when that directory exists |
| BackendLoader.ScanTypes | Duplicati/Library/Backend/BackendLoader/BackendLoader.cs:74-79 | every key keeps its earlier type or gets an exported backend type whose probe reported that key, and no key is removed |
| BackendLoader.ScanAssembly | Duplicati/Library/Backend/BackendLoader/BackendLoader.cs:68-83 | an unloadable assembly and the loader's own assembly change nothing; other new entries are backend types the assembly exports |
| BackendLoader.Discover | Duplicati/Library/Backend/BackendLoader/BackendLoader.cs:66-84 | no key that is already registered disappears |
| BackendLoader.LoadBackends | Duplicati/Library/Backend/BackendLoader/BackendLoader.cs:49-88 | afterwards the registry exists; discovery runs only when it was null, and an existing registry is kept |
| BackendLoader.Backends | Duplicati/Library/Backend/BackendLoader/BackendLoader.cs:40-47 | the listed keys are exactly the registry's keys, after making sure it exists |
| BackendLoader.GetBackend | Duplicati/Library/Backend/BackendLoader/BackendLoader.cs:96-110 | an empty url fails before anything else, and a malformed one next; for a registered lower-cased scheme the backend is built from that key's type with `url` and `options` unchanged, or its constructor's exception is reported; none exactly when the scheme is not registered |
| BackendLoader.NewUnbound | Duplicati/Library/Backend/BackendLoader/BackendLoader.cs:90-94 | the facade is unbound; a null registry becomes the one discovery builds from the folder, and an existing registry is kept as it is |
| BackendLoader.NewBound | Duplicati/Library/Backend/BackendLoader/BackendLoader.cs:32-38 | the registry is loaded first; "not supported" exactly when the factory finds no backend; otherwise bound to exactly the factory's backend, or failing with exactly the factory's exception |
| BackendLoader.DisplayName | Duplicati/Library/Backend/BackendLoader/BackendLoader.cs:114-123 | fails with "not bound" exactly when unbound, and otherwise gives the backend's answer |
| BackendLoader.ProtocolKey | Duplicati/Library/Backend/BackendLoader/BackendLoader.cs:125-134 | fails with "not bound" exactly when unbound, and otherwise gives the backend's answer |
| BackendLoader.List | Duplicati/Library/Backend/BackendLoader/BackendLoader.cs:136-142 | fails with "not created with an URL" exactly when unbound, and otherwise gives the backend's result |
| BackendLoader.Put | Duplicati/Library/Backend/BackendLoader/BackendLoader.cs:144-150 | fails with "not created with an URL" exactly when unbound, and otherwise gives the backend's result |
| BackendLoader.Get | Duplicati/Library/Backend/BackendLoader/BackendLoader.cs:152-158 | fails with "not created with an URL" exactly when unbound, and otherwise gives the backend's result |
| BackendLoader.Delete | Duplicati/Library/Backend/BackendLoader/BackendLoader.cs:160-166 | fails with "not created with an URL" exactly when unbound, and otherwise gives the backend's result |
| BackendLoaderProperties.ScanTypesWrites | Duplicati/Library/Backend/BackendLoader/BackendLoader.cs:74-79 | scanning an assembly's types applies its registrations in order, and a later one for the same key replaces an earlier one |
| BackendLoaderProperties.DiscoverWrites | Duplicati/Library/Backend/BackendLoader/BackendLoader.cs:66-84 | discovery over any files applies exactly their registrations, the last one per key winning |
| BackendLoaderProperties.RegistryIsLastWrite | Duplicati/Library/Backend/BackendLoader/BackendLoader.cs:55-86 | the built registry maps each key to the type of its last registration in discovery order, and holds no other key |
| BackendLoaderProperties.BackendsFolderOverrides | Duplicati/Library/Backend/BackendLoader/BackendLoader.cs:61-64 | a backend in `backends` overrides one of the same key in the program's directory |
| BackendLoaderProperties.FailedAssemblyIgnored | Duplicati/Library/Backend/BackendLoader/BackendLoader.cs:68-83 | an assembly that fails to load changes nothing, and the files after it are still scanned |
| BackendLoaderProperties.LoaderAssemblyIgnored | Duplicati/Library/Backend/BackendLoader/BackendLoader.cs:71-72 | the loader's own assembly is never scanned, whatever it exports |
| BackendLoaderProperties.ProbeFailureKeepsEarlier | Duplicati/Library/Backend/BackendLoader/BackendLoader.cs:74-83 | a probe that throws drops the remaining types of its assembly, and the earlier types stay registered |
| BackendLoaderProperties.DiscoveredEntry | Duplicati/Library/Backend/BackendLoader/BackendLoader.cs:66-84 | every entry discovery adds is a backend type filed under its own probe key, exported by an assembly other than the loader's |
| BackendLoaderProperties.RegistryEntries | Duplicati/Library/Backend/BackendLoader/BackendLoader.cs:74-78 | the registry never holds the contract type or a type whose probe failed |
| BackendLoaderProperties.StepKeepsRegistry | Duplicati/Library/Backend/BackendLoader/BackendLoader.cs:51-53 | no call changes a registry that exists |
| BackendLoaderProperties.RegistryBuiltOnce | Duplicati/Library/Backend/BackendLoader/BackendLoader.cs:51-86 | once the registry exists, no sequence of calls rebuilds or changes it |
| BackendLoaderProperties.RegistryFromOneDiscovery | Duplicati/Library/Backend/BackendLoader/BackendLoader.cs:49-88 | after any calls the registry is still null or was built by one discovery run, over the files as one of those calls saw them |
| BackendLoaderProperties.ResolvedKeyIsLowerCase | Duplicati/Library/Backend/BackendLoader/BackendLoader.cs:101-107 | a constructed backend reported the lower-cased scheme as its key, so a backend whose key has an upper-case letter is never constructed |
| BackendLoaderProperties.SchemeCaseInsensitive | Duplicati/Library/Backend/BackendLoader/BackendLoader.cs:101-109 | schemes that differ only in letter case resolve to the same backend type, or both to none |
| BackendLoaderProperties.RegisteredSchemeBinds | Duplicati/Library/Backend/BackendLoader/BackendLoader.cs:32-38 | a url whose lower-cased scheme is a registered key, with a backend constructor that does not throw, gives a facade bound to that key's backend, which reports the key as its protocol key |
| BackendLoaderProperties.BoundKeyIsScheme | Duplicati/Library/Backend/BackendLoader/BackendLoader.cs:32-38 | a bound facade reports the lower-cased scheme of its url as its protocol key |
| BackendLoaderProperties.UnboundRejectsAll | Duplicati/Library/Backend/BackendLoader/BackendLoader.cs:114-166 | an unbound facade fails every one of the six operations with its guard message |
| BackendLoaderProperties.EmptyUrlRejected | Duplicati/Library/Backend/BackendLoader/BackendLoader.cs:98-99 | an empty url fails before the scheme is read, leaving the state as it was; the bound constructor has loaded the registry first |

## Left out

- `DateTime.Now` is the wall clock. The model returns `Now` and does not compute a time.
- `DateTime.TryParse` depends on the culture. It is the parameter `isDate` in `ParseTimeInterval`, and `parseTime` (time of day) in `ParseDuplicityFileTime`.
- Calendar arithmetic is not modelled: `AddMonths` day clamping, the range exceptions of the `AddX` calls, and subtracting the epoch in `ParseTimeSpan`. Offsets are the list of steps to apply.
- Timeparser.ParseTimeSpan: the span is measured from `new DateTime(0)`, which is `DateTime.MinValue`, so any step that moves below it throws an `ArgumentOutOfRangeException` that the model does not report. `"-5"` throws in `AddSeconds`, and `"-5sxh"` throws at its first segment, before the model's report of the bad segment `x`.
- TimeparserProperties.RenderedSpan: for the same reason, a rendered offset whose steps go below `DateTime.MinValue` throws instead of giving the span this lemma states.
- Timeparser.Scan: like `ParseTimeInterval`, it uses the unbounded unit switch `StepOf`, not the 32-bit arithmetic of the code as written. The wrap-around of `factor * 7` and of negating `int.MinValue` is modelled separately, as described under "## Findings".
- `Timeparser.SecondsParsed`: `l * multiplier` is a 64-bit product that overflows only for `long.MinValue`. `AddSeconds` throws for any value that large anyway, so the model negates without wrapping.
- `new DateTime(year, month, day)` is modelled as its Gregorian range check (years 1 to 9999). The added time of day comes from the time parser.
- Null strings are not modelled. An empty string stands for `string.IsNullOrEmpty`, and a null `filetime` is out of scope.
- Numbers.ParseInteger: `int.TryParse` and `long.TryParse` read the current culture's `PositiveSign` and `NegativeSign`. The model takes them to be '+' and '-', as in the invariant culture and most others; a culture with other sign strings is not modelled.
- `ToLower` is modelled for ASCII letters only. That is exact for "now", the month names and URI schemes.
- Reflection is not modelled: `Assembly.LoadFile`, `GetExportedTypes`, `Activator.CreateInstance` and `Directory.GetFiles`. Assemblies are values that say whether they load, whether they are the loader's own, and for each type what its probe reports.
- The `lock` and the double-checked test are concurrency. Only the single-threaded outcome is modelled: discovery runs at most once, and the registry never changes afterwards.
- BackendLoader.Backends: the code returns the keys as a `string[]` in the dictionary's enumeration order. The model returns the set of keys, because that order is not specified by .NET.
- `new Uri(url).Scheme` is the parameter `schemeOf`; `None` stands for a malformed url. The backend constructors' exceptions are the parameter `constructorFault`.
- The concrete backends' `DisplayName`, `ProtocolKey`, `List`, `Put`, `Get` and `Delete` are network operations. They are the fields of the `Remote` parameter, and their results are forwarded unchanged.

## Findings

| source | as written | input that shows it | evidently intended | confidence | as-written member | corrected member |
|---|---|---|---|---|---|---|
| Duplicati/Library/Core/Timeparser.cs:94 | `factor * 7` is an unchecked 32-bit product | "613566757W" adds 3 days, because 613566757 * 7 = 4294967299 wraps to 3 | 613566757 weeks, or an error | not executed | TimeparserProperties.WeekCountWraps | TimeparserProperties.StepOfTable |
| Duplicati/Library/Core/Timeparser.cs:77 | `factor *= multiplier` negates in 32 bits | "-2147483648s" under negation moves the offset back 2147483648 seconds instead of forward | the count's sign flipped | not executed | TimeparserProperties.NegatedMinimumWraps | Timeparser.NegateMirrors |

In both rows the as-written switch is `Timeparser.StepOfAsWritten`. The rest of the model uses the corrected switch `Timeparser.StepOf`, whose arithmetic is unbounded. `TimeparserProperties.AsWrittenAgreesInRange` proves the two agree wherever the scaled count fits an `int`.

### Behaviour of the code worth knowing

- The facade has two guard errors, not one: `DisplayName` and `ProtocolKey` say the instance is not bound, and `List`, `Put`, `Get` and `Delete` say it was not created with a URL.
- The `try` wraps a whole assembly, not a single type. A probe that throws keeps the entries already written for that assembly and skips the rest of its types (`ProbeFailureKeepsEarlier`).
- Only the scheme is lower-cased, not the registered keys, so a backend whose key has an upper-case letter is registered but can never be found (`ResolvedKeyIsLowerCase`).
- The bound constructor chains to `this()`, so the registry is built even when the url is then rejected (`EmptyUrlRejected`).
- A negative year is reported with the day's message and text (`NegativeYearReportsDay`). A non-numeric day or year becomes 0, and only the date constructor rejects it (`UnreadableDayIsZero`).

=== FILE: backend_loader.dfy ===
/** The backend registry of `BackendLoader`: discovery of the backends that the
    assemblies next to the program export, the once-only map from protocol key to
    backend type, the factory that picks a backend by the scheme of a URL, and
    the facade that forwards storage operations to the backend it is bound to. */
module BackendLoader {
  import opened Wrappers
  import opened Text

  /** What discovery learns about one exported type. `Implementation(probe)` is
      a type assignable to `IBackendInterface` other than the interface itself;
      `probe` is the `ProtocolKey` of an instance made with the default
      constructor, or `None` when making it or reading its key throws. */
  datatype TypeKind =
    | Unrelated
    | ContractItself
    | Implementation(probe: Option<string>)

  /** A public type of an assembly. Its name identifies the type; the
      registry maps keys to these. */
  datatype ExportedType = ExportedType(name: string, kind: TypeKind)

  /** A `*.dll` file found by discovery: one that `Assembly.LoadFile` or
      `GetExportedTypes` refuses, or a loaded assembly with its exported types.
      `isLoader` marks the assembly that holds `BackendLoader` itself. */
  datatype Assembly =
    | Unloadable
    | Loaded(isLoader: bool, types: seq<ExportedType>)

  /** The contents of the program's directory: its assemblies, and those of the
      `backends` sub-directory when it exists. */
  datatype Folder = Folder(primary: seq<Assembly>, backends: Option<seq<Assembly>>)

  /** `m_backends`: protocol key to backend type. */
  type Registry = map<string, ExportedType>

  /** The static state of the class: `m_backends`, null until discovery ran. */
  datatype Loader = Loader(backends: Option<Registry>)

  /** The assemblies in the order discovery visits them: the program's
      directory first, then the `backends` sub-directory, so that a backend
      there overrides one of the same key. */
  function Candidates(folder: Folder): (files: seq<Assembly>)
    ensures folder.backends.None? ==> files == folder.primary
    ensures folder.backends.Some? ==> files == folder.primary + folder.backends.value
  {
    match folder.backends
    case None => folder.primary
    case Some(extra) => folder.primary + extra
  }

  /** The inner loop over `asm.GetExportedTypes()`: each backend type is
      recorded under the key its probe instance reports. A probe that throws
      ends the loop; the `catch` around the whole assembly keeps the entries
      already written and drops the remaining types. */
  function ScanTypes(types: seq<ExportedType>, reg: Registry): (r: Registry)
    ensures forall k :: k in reg ==> k in r
    ensures forall k :: k in r ==>
      (k in reg && r[k] == reg[k]) || (r[k] in types && r[k].kind == Implementation(Some(k)))
  {
    if |types| == 0 then reg
    else
      match types[0].kind
      case Implementation(Some(key)) => ScanTypes(types[1..], reg[key := types[0]])
      case Implementation(None) => reg
      case _ => ScanTypes(types[1..], reg)
  }

  /** One turn of the loop over the files: an assembly that cannot be loaded,
      and the loader's own assembly, leave the registry as it is. */
  function ScanAssembly(asm: Assembly, reg: Registry): (r: Registry)
    ensures asm.Unloadable? || (asm.Loaded? && asm.isLoader) ==> r == reg
    ensures forall k :: k in reg ==> k in r
    ensures forall k :: k in r ==>
      (k in reg && r[k] == reg[k])
      || (asm.Loaded? && !asm.isLoader && r[k] in asm.types && r[k].kind == Implementation(Some(k)))
  {
    match asm
    case Unloadable => reg
    case Loaded(isLoader, types) => if isLoader then reg else ScanTypes(types, reg)
  }

  /** The loop over all files, in order. */
  function Discover(files: seq<Assembly>, reg: Registry): (r: Registry)
    ensures forall k :: k in reg ==> k in r
  {
    if |files| == 0 then reg else Discover(files[1..], ScanAssembly(files[0], reg))
  }

  /** The registry built from scratch by one run of discovery. */
  function BuildRegistry(folder: Folder): Registry {
    Discover(Candidates(folder), map[])
  }

  /** `LoadBackends()`: discovery runs only while `m_backends` is null; once the
      registry exists it is kept as it is. `folder` stands for what the file
      system holds at the moment discovery runs. */
  function LoadBackends(state: Loader, folder: Folder): (r: Loader)
    ensures r.backends.Some?
    ensures state.backends.Some? ==> r == state
    ensures state.backends.None? ==> r.backends.value == BuildRegistry(folder)
  {
    if state.backends.None? then Loader(Some(BuildRegistry(folder))) else state
  }

  /** The static `Backends` property: the keys of the registry, after making
      sure it exists. */
  function Backends(state: Loader, folder: Folder): (r: (Loader, set<string>))
    ensures r.0 == LoadBackends(state, folder)
    ensures forall k :: k in r.1 <==> k in r.0.backends.value
  {
    var loaded := LoadBackends(state, folder);
    (loaded, loaded.backends.value.Keys)
  }

  /** A backend made by `Activator.CreateInstance(type, url, options)`. */
  datatype Instance = Instance(backend: ExportedType, url: string, options: map<string, string>)

  /** The exceptions of the factory and of the bound constructor. */
  datatype LoaderError =
    | EmptyUrl                          // ArgumentNullException for a null or empty url
    | MalformedUrl                      // `new Uri(url)` throws
    | ConstructorFailed(message: string) // `Activator.CreateInstance` throws: the backend's own exception
                                        // wrapped in a TargetInvocationException, or a missing constructor
    | UnsupportedUrl                    // "The supplied url is not supported"

  /** `GetBackend(url, options)`. `schemeOf` stands for `new Uri(url).Scheme`
      (`None` when the url is malformed); `constructorFault` is the exception
      `Activator.CreateInstance` throws for the given arguments, if any: the
      backend constructor's own exception arrives wrapped in a
      `TargetInvocationException`, and a type without a `(string, Dictionary)`
      constructor gives a `MissingMethodException`. The
      result pairs the new static state with the backend, `None` being the
      null of an unknown scheme. */
  function GetBackend(state: Loader, folder: Folder, url: string, options: map<string, string>,
                      schemeOf: string -> Option<string>, constructorFault: Instance -> Option<string>)
    : (r: (Loader, Result<Option<Instance>, LoaderError>))
    ensures |url| == 0 ==> r == (state, Failure(EmptyUrl))
    ensures |url| > 0 && schemeOf(url).None? ==> r == (state, Failure(MalformedUrl))
    ensures |url| > 0 && schemeOf(url).Some? ==> r.0 == LoadBackends(state, folder)
    ensures r.1.Success? && r.1.value.Some? ==>
      && r.1.value.value.url == url
      && r.1.value.value.options == options
      && schemeOf(url).Some?
      && ToLower(schemeOf(url).value) in r.0.backends.value
      && r.1.value.value.backend == r.0.backends.value[ToLower(schemeOf(url).value)]
      && constructorFault(r.1.value.value).None?
    ensures r.1 == Success(None) <==>
      |url| > 0 && schemeOf(url).Some? && ToLower(schemeOf(url).value) !in r.0.backends.value
    ensures && |url| > 0 && schemeOf(url).Some? && ToLower(schemeOf(url).value) in r.0.backends.value
            && constructorFault(Instance(r.0.backends.value[ToLower(schemeOf(url).value)], url, options)).None?
      ==> r.1 == Success(Some(Instance(r.0.backends.value[ToLower(schemeOf(url).value)], url, options)))
    ensures && |url| > 0 && schemeOf(url).Some? && ToLower(schemeOf(url).value) in r.0.backends.value
            && constructorFault(Instance(r.0.backends.value[ToLower(schemeOf(url).value)], url, options)).Some?
      ==> r.1 == Failure(ConstructorFailed(
            constructorFault(Instance(r.0.backends.value[ToLower(schemeOf(url).value)], url, options)).value))
  {
    if |url| == 0 then (state, Failure(EmptyUrl))
    else
      match schemeOf(url)
      case None => (state, Failure(MalformedUrl))
      case Some(scheme) =>
        var key := ToLower(scheme);
        var loaded := LoadBackends(state, folder);
        var reg := loaded.backends.value;
        if key in reg then
          var instance := Instance(reg[key], url, options);
          match constructorFault(instance)
          case Some(message) => (loaded, Failure(ConstructorFailed(message)))
          case None => (loaded, Success(Some(instance)))
        else (loaded, Success(None))
  }

  /** A `BackendLoader` object: made without a url, or bound to a backend. */
  datatype Facade = Unbound | Bound(instance: Instance)

  /** `new BackendLoader()`: makes sure the registry exists. */
  function NewUnbound(state: Loader, folder: Folder): (r: (Loader, Facade))
    ensures r.1 == Unbound
    ensures r.0.backends.Some?
    ensures state.backends.Some? ==> r.0 == state
    ensures state.backends.None? ==> r.0 == Loader(Some(BuildRegistry(folder)))
    ensures r.0 == LoadBackends(state, folder)
  {
    (LoadBackends(state, folder), Unbound)
  }

  /** `new BackendLoader(url, options)`: runs `this()` first, so the registry
      exists even when the url is then rejected, and fails exactly when the
      factory fails or finds no backend for the scheme. */
  function NewBound(state: Loader, folder: Folder, url: string, options: map<string, string>,
                    schemeOf: string -> Option<string>, constructorFault: Instance -> Option<string>)
    : (r: (Loader, Result<Facade, LoaderError>))
    ensures r.0 == LoadBackends(state, folder)
    ensures var made := GetBackend(LoadBackends(state, folder), folder, url, options, schemeOf, constructorFault).1;
      && (r.1 == Failure(UnsupportedUrl) <==> made == Success(None))
      && (r.1.Success? <==> made.Success? && made.value.Some?)
      && (r.1.Success? ==> r.1.value.Bound? && r.1.value.instance.url == url)
      && (made.Success? && made.value.Some? ==> r.1 == Success(Bound(made.value.value)))
      && (made.Failure? ==> r.1 == Failure(made.error))
  {
    var loaded := LoadBackends(state, folder);
    var (after, made) := GetBackend(loaded, folder, url, options, schemeOf, constructorFault);
    match made
    case Failure(e) => (after, Failure(e))
    case Success(None) => (after, Failure(UnsupportedUrl))
    case Success(Some(instance)) => (after, Success(Bound(instance)))
  }

  /** A file listed by a backend. */
  datatype FileEntry = FileEntry(name: string, size: int)

  /** What the bound backends do: each member gives an instance's answer, or
      the message of the exception it throws. These are the network
      operations of the concrete backends. */
  datatype Remote = Remote(
    displayName: Instance -> Result<string, string>,
    protocolKey: Instance -> Result<string, string>,
    list: Instance -> Result<seq<FileEntry>, string>,
    put: (Instance, string, string) -> Result<(), string>,
    get: (Instance, string, string) -> Result<(), string>,
    delete: (Instance, string) -> Result<(), string>)

  /** The exceptions of the facade: the two guard messages, and an exception of
      the bound backend passed through. */
  datatype FacadeError =
    | NotBound          // "This instance is not bound to a particular backend"
    | NotCreatedWithUrl // "This instance was not created with an URL"
    | BackendFailed(message: string)

  /** A backend's own outcome, its exception passed through unchanged. */
  function Forward<T>(outcome: Result<T, string>): (r: Result<T, FacadeError>)
    ensures r.Success? <==> outcome.Success?
    ensures r.Success? ==> r.value == outcome.value
    ensures r.Failure? ==> r.error == BackendFailed(outcome.error)
  {
    match outcome
    case Success(v) => Success(v)
    case Failure(message) => Failure(BackendFailed(message))
  }

  /** The guard of the two properties. */
  function Property(f: Facade, read: Instance -> Result<string, string>): (r: Result<string, FacadeError>)
    ensures f.Unbound? <==> r == Failure(NotBound)
    ensures f.Bound? ==> r == Forward(read(f.instance))
  {
    match f
    case Unbound => Failure(NotBound)
    case Bound(instance) => Forward(read(instance))
  }

  function DisplayName(f: Facade, remote: Remote): (r: Result<string, FacadeError>)
    ensures f.Unbound? <==> r == Failure(NotBound)
    ensures f.Bound? ==> r == Forward(remote.displayName(f.instance))
  {
    Property(f, remote.displayName)
  }

  function ProtocolKey(f: Facade, remote: Remote): (r: Result<string, FacadeError>)
    ensures f.Unbound? <==> r == Failure(NotBound)
    ensures f.Bound? ==> r == Forward(remote.protocolKey(f.instance))
  {
    Property(f, remote.protocolKey)
  }

  function List(f: Facade, remote: Remote): (r: Result<seq<FileEntry>, FacadeError>)
    ensures f.Unbound? <==> r == Failure(NotCreatedWithUrl)
    ensures f.Bound? ==> r == Forward(remote.list(f.instance))
  {
    match f
    case Unbound => Failure(NotCreatedWithUrl)
    case Bound(instance) => Forward(remote.list(instance))
  }

  function Put(f: Facade, remote: Remote, remotename: string, filename: string): (r: Result<(), FacadeError>)
    ensures f.Unbound? <==> r == Failure(NotCreatedWithUrl)
    ensures f.Bound? ==> r == Forward(remote.put(f.instance, remotename, filename))
  {
    match f
    case Unbound => Failure(NotCreatedWithUrl)
    case Bound(instance) => Forward(remote.put(instance, remotename, filename))
  }

  function Get(f: Facade, remote: Remote, remotename: string, filename: string): (r: Result<(), FacadeError>)
    ensures f.Unbound? <==> r == Failure(NotCreatedWithUrl)
    ensures f.Bound? ==> r == Forward(remote.get(f.instance, remotename, filename))
  {
    match f
    case Unbound => Failure(NotCreatedWithUrl)
    case Bound(instance) => Forward(remote.get(instance, remotename, filename))
  }

  function Delete(f: Facade, remote: Remote, remotename: string): (r: Result<(), FacadeError>)
    ensures f.Unbound? <==> r == Failure(NotCreatedWithUrl)
    ensures f.Bound? ==> r == Forward(remote.delete(f.instance, remotename))
  {
    match f
    case Unbound => Failure(NotCreatedWithUrl)
    case Bound(instance) => Forward(remote.delete(instance, remotename))
  }
}

=== FILE: backend_loader_properties.dfy ===
/** What the backend registry promises: the registry holds, for each key, the
    backend type registered last; broken assemblies and the loader's own
    assembly are passed over without stopping discovery; discovery runs once;
    the factory matches schemes case-insensitively; and the facade rejects
    every operation until it is bound. */
module BackendLoaderProperties {
  import opened Wrappers
  import opened Text
  import opened BackendLoader

  /** A registration `backends[key] = type` made by discovery. */
  datatype Write = Write(key: string, backend: ExportedType)

  /** The registrations the types of one assembly make, in order: one per
      backend type, up to the first probe that throws. */
  function TypeWrites(types: seq<ExportedType>): seq<Write> {
    if |types| == 0 then []
    else
      match types[0].kind
      case Implementation(Some(key)) => [Write(key, types[0])] + TypeWrites(types[1..])
      case Implementation(None) => []
      case _ => TypeWrites(types[1..])
  }

  /** The registrations one file makes. */
  function AssemblyWrites(asm: Assembly): seq<Write> {
    match asm
    case Unloadable => []
    case Loaded(isLoader, types) => if isLoader then [] else TypeWrites(types)
  }

  /** The registrations of all files, in discovery order. */
  function Writes(files: seq<Assembly>): seq<Write> {
    if |files| == 0 then [] else AssemblyWrites(files[0]) + Writes(files[1..])
  }

  /** The type of the last registration of `key`, if there is one. */
  function LastWrite(ws: seq<Write>, key: string): Option<ExportedType> {
    if |ws| == 0 then None
    else
      match LastWrite(ws[1..], key)
      case Some(t) => Some(t)
      case None => if ws[0].key == key then Some(ws[0].backend) else None
  }

  /** What a registry holds under `key`. */
  function Lookup(reg: Registry, key: string): Option<ExportedType> {
    if key in reg then Some(reg[key]) else None
  }

  /** What `reg` holds under `key` after the registrations `ws`: the last of
      them for that key, or else what it held before. */
  function After(ws: seq<Write>, reg: Registry, key: string): Option<ExportedType> {
    match LastWrite(ws, key)
    case Some(t) => Some(t)
    case None => Lookup(reg, key)
  }

  /** The last registration of a key in `a + b` is its last one in `b`, or
      failing that its last one in `a`. */
  lemma {:induction false} LastWriteAppend(a: seq<Write>, b: seq<Write>, key: string)
    ensures LastWrite(a + b, key) == match LastWrite(b, key) case Some(t) => Some(t) case None => LastWrite(a, key)
  {
    if |a| > 0 {
      assert (a + b)[1..] == a[1..] + b;
      LastWriteAppend(a[1..], b, key);
    } else {
      assert a + b == b;
    }
  }

  /** Scanning the types of an assembly applies exactly its registrations, a
      later one for the same key replacing an earlier one. */
  lemma {:induction false} ScanTypesWrites(types: seq<ExportedType>, reg: Registry, key: string)
    ensures Lookup(ScanTypes(types, reg), key) == After(TypeWrites(types), reg, key)
  {
    if |types| > 0 {
      match types[0].kind
      case Implementation(Some(k)) =>
        ScanTypesWrites(types[1..], reg[k := types[0]], key);
        assert TypeWrites(types)[1..] == TypeWrites(types[1..]);
      case Implementation(None) =>
      case Unrelated =>
        ScanTypesWrites(types[1..], reg, key);
      case ContractItself =>
        ScanTypesWrites(types[1..], reg, key);
    }
  }

  /** Registrations made one after the other compose. */
  lemma AfterAppend(a: seq<Write>, b: seq<Write>, reg: Registry, mid: Registry, key: string)
    requires Lookup(mid, key) == After(a, reg, key)
    ensures After(a + b, reg, key) == After(b, mid, key)
  {
    LastWriteAppend(a, b, key);
  }

  /** Discovery over a sequence of files applies exactly their registrations. */
  lemma {:induction false} DiscoverWrites(files: seq<Assembly>, reg: Registry, key: string)
    ensures Lookup(Discover(files, reg), key) == After(Writes(files), reg, key)
  {
    if |files| > 0 {
      var mid := ScanAssembly(files[0], reg);
      if files[0].Loaded? && !files[0].isLoader {
        ScanTypesWrites(files[0].types, reg, key);
      }
      DiscoverWrites(files[1..], mid, key);
      AfterAppend(AssemblyWrites(files[0]), Writes(files[1..]), reg, mid, key);
    }
  }

  /** The registry maps each key to the type of the last registration of that
      key in discovery order, and holds no other key. */
  lemma RegistryIsLastWrite(folder: Folder, key: string)
    ensures Lookup(BuildRegistry(folder), key) == LastWrite(Writes(Candidates(folder)), key)
  {
    DiscoverWrites(Candidates(folder), map[], key);
  }

  /** Discovery over `a + b` is discovery over `a` followed by discovery over `b`. */
  lemma {:induction false} DiscoverAppend(a: seq<Assembly>, b: seq<Assembly>, reg: Registry)
    ensures Discover(a + b, reg) == Discover(b, Discover(a, reg))
  {
    if |a| > 0 {
      assert (a + b)[1..] == a[1..] + b;
      DiscoverAppend(a[1..], b, ScanAssembly(a[0], reg));
    } else {
      assert a + b == b;
    }
  }

  /** An assembly that cannot be loaded changes nothing and does not stop the
      files after it from being scanned. */
  lemma FailedAssemblyIgnored(before: seq<Assembly>, after: seq<Assembly>, reg: Registry)
    ensures Discover(before + [Unloadable] + after, reg) == Discover(before + after, reg)
  {
    DiscoverAppend(before + [Unloadable], after, reg);
    DiscoverAppend(before, [Unloadable], reg);
    DiscoverAppend(before, after, reg);
  }

  /** The loader's own assembly is never scanned, whatever types it exports. */
  lemma LoaderAssemblyIgnored(before: seq<Assembly>, types: seq<ExportedType>, after: seq<Assembly>, reg: Registry)
    ensures Discover(before + [Loaded(true, types)] + after, reg) == Discover(before + after, reg)
  {
    DiscoverAppend(before + [Loaded(true, types)], after, reg);
    DiscoverAppend(before, [Loaded(true, types)], reg);
    DiscoverAppend(before, after, reg);
  }

  /** A probe that throws drops the types after it in the same assembly, but
      keeps what the types before it registered. */
  lemma {:induction false} ProbeFailureKeepsEarlier(types: seq<ExportedType>, j: nat, reg: Registry)
    requires j < |types| && types[j].kind == Implementation(None)
    ensures ScanTypes(types, reg) == ScanTypes(types[..j], reg)
  {
    if j > 0 {
      var earlier := types[..j];
      assert earlier[0] == types[0] && earlier[1..] == types[1..][..j - 1];
      match types[0].kind
      case Implementation(Some(k)) =>
        ProbeFailureKeepsEarlier(types[1..], j - 1, reg[k := types[0]]);
        assert ScanTypes(earlier, reg) == ScanTypes(earlier[1..], reg[k := types[0]]);
      case Implementation(None) =>
        assert ScanTypes(earlier, reg) == reg;
      case Unrelated =>
        ProbeFailureKeepsEarlier(types[1..], j - 1, reg);
        assert ScanTypes(earlier, reg) == ScanTypes(earlier[1..], reg);
      case ContractItself =>
        ProbeFailureKeepsEarlier(types[1..], j - 1, reg);
        assert ScanTypes(earlier, reg) == ScanTypes(earlier[1..], reg);
    }
  }

  /** `t` is exported by one of `files` other than the loader's own assembly. */
  predicate ExportedBy(files: seq<Assembly>, t: ExportedType) {
    exists i :: 0 <= i < |files| && files[i].Loaded? && !files[i].isLoader && t in files[i].types
  }

  /** Every entry discovery adds is a backend type, not the contract type,
      filed under the key its own probe reported, and exported by a loaded
      assembly other than the loader's. */
  lemma {:induction false} DiscoveredEntry(files: seq<Assembly>, reg: Registry, key: string)
    requires key in Discover(files, reg)
    ensures (key in reg && Discover(files, reg)[key] == reg[key])
      || (Discover(files, reg)[key].kind == Implementation(Some(key)) && ExportedBy(files, Discover(files, reg)[key]))
  {
    if |files| > 0 {
      var mid := ScanAssembly(files[0], reg);
      var t := Discover(files, reg)[key];
      DiscoveredEntry(files[1..], mid, key);
      if key in mid && t == mid[key] {
        if !(key in reg && t == reg[key]) {
          assert files[0].Loaded? && !files[0].isLoader && t in files[0].types;
        }
      } else {
        var i :| 0 <= i < |files[1..]| && files[1..][i].Loaded? && !files[1..][i].isLoader && t in files[1..][i].types;
        assert files[i + 1] == files[1..][i];
      }
    }
  }

  /** The registry holds backend types only: never the contract type, never a
      type whose probe failed, always under the key the type reported, and
      always exported by an assembly other than the loader's. */
  lemma RegistryEntries(folder: Folder, key: string)
    requires key in BuildRegistry(folder)
    ensures BuildRegistry(folder)[key].kind == Implementation(Some(key))
    ensures ExportedBy(Candidates(folder), BuildRegistry(folder)[key])
  {
    DiscoveredEntry(Candidates(folder), map[], key);
  }

  /** A backend in the `backends` sub-directory overrides one of the same key in
      the program's directory. */
  lemma BackendsFolderOverrides(primary: seq<Assembly>, extra: seq<Assembly>, key: string, t: ExportedType)
    requires LastWrite(Writes(extra), key) == Some(t)
    ensures Lookup(BuildRegistry(Folder(primary, Some(extra))), key) == Some(t)
  {
    RegistryIsLastWrite(Folder(primary, Some(extra)), key);
    WritesAppend(primary, extra);
    LastWriteAppend(Writes(primary), Writes(extra), key);
  }

  /** The registrations of `a + b` are those of `a` followed by those of `b`. */
  lemma {:induction false} WritesAppend(a: seq<Assembly>, b: seq<Assembly>)
    ensures Writes(a + b) == Writes(a) + Writes(b)
  {
    if |a| > 0 {
      assert (a + b)[1..] == a[1..] + b;
      WritesAppend(a[1..], b);
    } else {
      assert a + b == b;
    }
  }

  /** A call into the class that may touch the static state, with the file
      system as it is at that moment. */
  datatype Call =
    | GetBackendCall(folder: Folder, url: string, options: map<string, string>)
    | NewUnboundCall(folder: Folder)
    | NewBoundCall(folder: Folder, url: string, options: map<string, string>)
    | BackendsCall(folder: Folder)

  /** The static state after one call. */
  function Step(state: Loader, call: Call, schemeOf: string -> Option<string>,
                constructorFault: Instance -> Option<string>): Loader
  {
    match call
    case GetBackendCall(folder, url, options) => GetBackend(state, folder, url, options, schemeOf, constructorFault).0
    case NewUnboundCall(folder) => NewUnbound(state, folder).0
    case NewBoundCall(folder, url, options) => NewBound(state, folder, url, options, schemeOf, constructorFault).0
    case BackendsCall(folder) => Backends(state, folder).0
  }

  /** The static state after a sequence of calls. */
  function Run(state: Loader, calls: seq<Call>, schemeOf: string -> Option<string>,
               constructorFault: Instance -> Option<string>): Loader
    decreases |calls|
  {
    if |calls| == 0 then state
    else Run(Step(state, calls[0], schemeOf, constructorFault), calls[1..], schemeOf, constructorFault)
  }

  /** No call changes a registry that exists. */
  lemma StepKeepsRegistry(state: Loader, call: Call, schemeOf: string -> Option<string>,
                          constructorFault: Instance -> Option<string>)
    requires state.backends.Some?
    ensures Step(state, call, schemeOf, constructorFault) == state
  {
  }

  /** Once the registry exists, no sequence of calls rebuilds or changes it, so
      every later call sees the same keys. */
  lemma {:induction false} RegistryBuiltOnce(state: Loader, calls: seq<Call>, schemeOf: string -> Option<string>,
                                             constructorFault: Instance -> Option<string>)
    requires state.backends.Some?
    ensures Run(state, calls, schemeOf, constructorFault) == state
  {
    if |calls| > 0 {
      StepKeepsRegistry(state, calls[0], schemeOf, constructorFault);
      RegistryBuiltOnce(state, calls[1..], schemeOf, constructorFault);
    }
  }

  /** Starting from a null registry, the registry after any sequence of calls
      is either still null or the one built by a single run of discovery over
      the file system as one of those calls saw it. */
  lemma {:induction false} RegistryFromOneDiscovery(calls: seq<Call>, schemeOf: string -> Option<string>,
                                                    constructorFault: Instance -> Option<string>)
    ensures Run(Loader(None), calls, schemeOf, constructorFault).backends.None?
      || (exists i :: 0 <= i < |calls|
            && Run(Loader(None), calls, schemeOf, constructorFault).backends.value == BuildRegistry(calls[i].folder))
  {
    if |calls| > 0 {
      var next := Step(Loader(None), calls[0], schemeOf, constructorFault);
      if next.backends.Some? {
        assert next.backends.value == BuildRegistry(calls[0].folder);
        RegistryBuiltOnce(next, calls[1..], schemeOf, constructorFault);
      } else {
        assert next == Loader(None);
        RegistryFromOneDiscovery(calls[1..], schemeOf, constructorFault);
        var r := Run(Loader(None), calls, schemeOf, constructorFault);
        if r.backends.Some? {
          var i :| 0 <= i < |calls[1..]| && r.backends.value == BuildRegistry(calls[1..][i].folder);
          assert calls[i + 1] == calls[1..][i];
        }
      }
    }
  }

  /** The static state as some run of the program leaves it: null, or the
      registry that discovery built from some file system. */
  ghost predicate Reachable(state: Loader) {
    state.backends.None? || exists folder :: state.backends.value == BuildRegistry(folder)
  }

  /** Every registry the program can hold keeps backend types under the key
      their probe reported. */
  predicate KeysAreProbes(state: Loader)
    requires state.backends.Some?
  {
    forall key :: key in state.backends.value ==> state.backends.value[key].kind == Implementation(Some(key))
  }

  lemma ReachableKeys(state: Loader, folder: Folder)
    requires Reachable(state)
    ensures KeysAreProbes(LoadBackends(state, folder))
  {
    var reg := LoadBackends(state, folder).backends.value;
    forall key | key in reg
      ensures reg[key].kind == Implementation(Some(key))
    {
      if state.backends.None? {
        RegistryEntries(folder, key);
      } else {
        var earlier :| state.backends.value == BuildRegistry(earlier);
        RegistryEntries(earlier, key);
      }
    }
  }

  /** The factory finds a backend by the lower-cased scheme, so the type it
      constructs reported that lower-case key as its protocol key. A backend
      whose key holds an upper-case letter is never constructed. */
  lemma ResolvedKeyIsLowerCase(state: Loader, folder: Folder, url: string, options: map<string, string>,
                               schemeOf: string -> Option<string>, constructorFault: Instance -> Option<string>,
                               instance: Instance)
    requires Reachable(state)
    requires GetBackend(state, folder, url, options, schemeOf, constructorFault).1 == Success(Some(instance))
    ensures schemeOf(url).Some?
    ensures instance.backend.kind == Implementation(Some(ToLower(schemeOf(url).value)))
    ensures ToLower(instance.backend.kind.probe.value) == instance.backend.kind.probe.value
  {
    ReachableKeys(state, folder);
    ToLowerIdempotent(schemeOf(url).value);
  }

  /** Urls whose schemes differ only in the case of their letters resolve to
      the same backend type, or both to none. */
  lemma SchemeCaseInsensitive(state: Loader, folder: Folder, url1: string, url2: string,
                              options: map<string, string>, schemeOf: string -> Option<string>,
                              constructorFault: Instance -> Option<string>)
    requires |url1| > 0 && |url2| > 0
    requires schemeOf(url1).Some? && schemeOf(url2).Some?
    requires ToLower(schemeOf(url1).value) == ToLower(schemeOf(url2).value)
    ensures var made1 := GetBackend(state, folder, url1, options, schemeOf, constructorFault).1;
      var made2 := GetBackend(state, folder, url2, options, schemeOf, constructorFault).1;
      && (made1 == Success(None) <==> made2 == Success(None))
      && (made1.Success? && made2.Success? && made1.value.Some? && made2.value.Some?
          ==> made1.value.value.backend == made2.value.value.backend)
  {
  }

  /** The backends report, as their protocol key, the key their probe
      instance reported during discovery. */
  ghost predicate ConsistentKeys(remote: Remote) {
    forall instance: Instance :: instance.backend.kind.Implementation? && instance.backend.kind.probe.Some?
      ==> remote.protocolKey(instance) == Success(instance.backend.kind.probe.value)
  }

  /** A facade bound from a url reports the url's scheme, lower-cased, as its
      protocol key ("ftp" for "FTP://host/path" with an ftp backend). */
  lemma BoundKeyIsScheme(state: Loader, folder: Folder, url: string, options: map<string, string>,
                         schemeOf: string -> Option<string>, constructorFault: Instance -> Option<string>,
                         remote: Remote, facade: Facade)
    requires Reachable(state) && ConsistentKeys(remote)
    requires NewBound(state, folder, url, options, schemeOf, constructorFault).1 == Success(facade)
    ensures schemeOf(url).Some?
    ensures ProtocolKey(facade, remote) == Success(ToLower(schemeOf(url).value))
  {
    var loaded := LoadBackends(state, folder);
    assert Reachable(loaded) by {
      if state.backends.None? {
        assert loaded.backends.value == BuildRegistry(folder);
      }
    }
    ResolvedKeyIsLowerCase(loaded, folder, url, options, schemeOf, constructorFault, facade.instance);
  }

  /** The converse: a url whose lower-cased scheme is a registered key, with a
      backend constructor that does not throw, gives a bound facade, and that
      facade reports the key ("ftp" for "FTP://host/path" with an ftp backend
      registered). */
  lemma RegisteredSchemeBinds(state: Loader, folder: Folder, url: string, options: map<string, string>,
                              schemeOf: string -> Option<string>, constructorFault: Instance -> Option<string>,
                              remote: Remote, key: string)
    requires Reachable(state) && ConsistentKeys(remote)
    requires |url| > 0 && schemeOf(url).Some? && ToLower(schemeOf(url).value) == key
    requires key in LoadBackends(state, folder).backends.value
    requires constructorFault(Instance(LoadBackends(state, folder).backends.value[key], url, options)).None?
    ensures NewBound(state, folder, url, options, schemeOf, constructorFault).1.Success?
    ensures NewBound(state, folder, url, options, schemeOf, constructorFault).1.value
      == Bound(Instance(LoadBackends(state, folder).backends.value[key], url, options))
    ensures ProtocolKey(NewBound(state, folder, url, options, schemeOf, constructorFault).1.value, remote)
      == Success(key)
  {
    var made := NewBound(state, folder, url, options, schemeOf, constructorFault).1;
    assert made.Success?;
    BoundKeyIsScheme(state, folder, url, options, schemeOf, constructorFault, remote, made.value);
  }

  /** A facade made without a url rejects every operation, and no backend is
      asked anything. */
  lemma UnboundRejectsAll(remote: Remote, remotename: string, filename: string)
    ensures DisplayName(Unbound, remote) == Failure(NotBound)
    ensures ProtocolKey(Unbound, remote) == Failure(NotBound)
    ensures List(Unbound, remote) == Failure(NotCreatedWithUrl)
    ensures Put(Unbound, remote, remotename, filename) == Failure(NotCreatedWithUrl)
    ensures Get(Unbound, remote, remotename, filename) == Failure(NotCreatedWithUrl)
    ensures Delete(Unbound, remote, remotename) == Failure(NotCreatedWithUrl)
  {
  }

  /** An empty url is rejected before the scheme is read or the registry is
      touched, whatever the state. */
  lemma EmptyUrlRejected(state: Loader, folder: Folder, options: map<string, string>,
                         schemeOf: string -> Option<string>, constructorFault: Instance -> Option<string>)
    ensures GetBackend(state, folder, "", options, schemeOf, constructorFault) == (state, Failure(EmptyUrl))
    ensures NewBound(state, folder, "", options, schemeOf, constructorFault)
      == (LoadBackends(state, folder), Failure(EmptyUrl))
  {
  }
}

=== FILE: filetime_properties.dfy ===
/** What `ParseDuplicityFileTime` promises about the time stamps duplicity
    writes, such as "Tue Oct 14 12:00:00 2008": they are read back, and the ways
    a malformed stamp is reported. */
module FileTimeProperties {
  import opened Wrappers
  import opened Text
  import opened Numbers
  import opened Timeparser

  /** The month abbreviations as duplicity writes them. */
  const MonthTitles: seq<string> :=
    ["Jan", "Feb", "Mar", "Apr", "May", "Jun", "Jul", "Aug", "Sep", "Oct", "Nov", "Dec"]

  /** A field of a time stamp: not empty, no space inside, no white space at
      either end. */
  predicate IsField(w: string) {
    |w| > 0 && ' ' !in w && !IsWhiteSpace(w[0]) && !IsWhiteSpace(w[|w| - 1])
  }

  predicate AllFields(tokens: seq<string>) {
    forall i :: 0 <= i < |tokens| ==> IsField(tokens[i])
  }

  /** The fields of a time stamp: weekday, month, day, clock time, year. */
  function StampFields(weekday: string, month: string, day: string, clock: string, year: string): (r: seq<string>)
    ensures |r| == 5 && r[0] == weekday && r[1] == month && r[2] == day && r[3] == clock && r[4] == year
  {
    [weekday, month, day, clock, year]
  }

  /** A time stamp whose fields are spaced apart by the runs of spaces `gaps`
      (one or more each). `clock` is the time of day as text; its meaning is
      whatever the time parser makes of it. */
  function SpacedStamp(weekday: string, ft: FileTime, clock: string, gaps: seq<nat>): string
    requires 1 <= ft.month <= 12 && |gaps| == 4
  {
    Spaced(StampFields(weekday, MonthTitles[ft.month - 1], FormatInt(ft.day), clock, FormatInt(ft.year)),
           gaps + [0], ' ')
  }

  /** The spaces before the day in the asctime layout, which pads the day to two
      columns: "Tue Oct  4 12:00:00 2008". */
  function DayGap(day: int): nat {
    if 0 <= day < 10 then 2 else 1
  }

  /** A time stamp in the asctime layout duplicity writes. */
  function FormatFileTime(weekday: string, ft: FileTime, clock: string): string
    requires 1 <= ft.month <= 12
  {
    SpacedStamp(weekday, ft, clock, [1, DayGap(ft.day), 1, 1])
  }

  /** Spaced fields with nothing after the last one start with the first
      field's first character and end with the last field's last character. */
  lemma {:induction false} SpacedEnds(tokens: seq<string>, gaps: seq<nat>, sep: char)
    requires |tokens| > 0 && AllFields(tokens)
    requires |gaps| == |tokens| && gaps[|gaps| - 1] == 0
    ensures |Spaced(tokens, gaps, sep)| > 0
    ensures Spaced(tokens, gaps, sep)[0] == tokens[0][0]
    ensures Spaced(tokens, gaps, sep)[|Spaced(tokens, gaps, sep)| - 1] == tokens[|tokens| - 1][|tokens[|tokens| - 1]| - 1]
  {
    if |tokens| == 1 {
      assert Spaced(tokens, gaps, sep) == tokens[0] + (Repeat(sep, 0) + []);
      assert Spaced(tokens, gaps, sep) == tokens[0];
    } else {
      var tail := tokens[1..];
      assert AllFields(tail) by {
        forall i | 0 <= i < |tail| ensures IsField(tail[i]) {
          assert tail[i] == tokens[i + 1];
        }
      }
      SpacedEnds(tail, gaps[1..], sep);
      assert tail[|tail| - 1] == tokens[|tokens| - 1];
    }
  }

  /** Fields spaced apart by runs of spaces, with nothing before the first or
      after the last, are trimmed and split back into the same fields. */
  lemma FieldsOf(tokens: seq<string>, gaps: seq<nat>)
    requires |tokens| > 0 && AllFields(tokens)
    requires |gaps| == |tokens| && gaps[|gaps| - 1] == 0
    requires forall i :: 0 <= i < |gaps| - 1 ==> gaps[i] > 0
    ensures Split(Trim(Spaced(tokens, gaps, ' ')), ' ') == tokens
  {
    SpacedEnds(tokens, gaps, ' ');
    assert Trim(Spaced(tokens, gaps, ' ')) == Spaced(tokens, gaps, ' ');
    SplitSpaced(0, tokens, gaps, ' ');
    assert Repeat(' ', 0) + Spaced(tokens, gaps, ' ') == Spaced(tokens, gaps, ' ');
  }

  /** The decimal rendering of a number is a field. */
  lemma NumberField(v: int)
    ensures IsField(FormatInt(v))
  {
  }

  /** Each month abbreviation is a field that lower-cases, character by
      character, to its lower-case name. */
  lemma TitleChars(m: int, title: string, name: string)
    requires 1 <= m <= 12 && title == MonthTitles[m - 1] && name == MonthNames[m - 1]
    ensures IsField(title) && |title| == |name|
    ensures forall i :: 0 <= i < |title| ==> ToLowerChar(title[i]) == name[i]
  {
  }

  /** A field is its own trimmed form. */
  lemma TrimField(w: string)
    requires IsField(w)
    ensures Trim(w) == w
  {
  }

  /** Lower-casing a month abbreviation gives its lower-case name. */
  lemma TitleLowers(m: int)
    requires 1 <= m <= 12
    ensures IsField(MonthTitles[m - 1])
    ensures ToLower(Trim(MonthTitles[m - 1])) == MonthNames[m - 1]
  {
    TitleChars(m, MonthTitles[m - 1], MonthNames[m - 1]);
    TrimField(MonthTitles[m - 1]);
    LowerEach(MonthTitles[m - 1], MonthNames[m - 1]);
  }

  /** `ToLower(t)` is `n` when they agree character by character. */
  lemma LowerEach(t: string, n: string)
    requires |t| == |n| && forall i :: 0 <= i < |t| ==> ToLowerChar(t[i]) == n[i]
    ensures ToLower(t) == n
  {
  }

  /** No month name occurs twice. */
  lemma MonthNamesDistinct(i: int, j: int)
    requires 0 <= i < j < 12
    ensures MonthNames[i] != MonthNames[j]
  {
    assert MonthNames[i][0] != MonthNames[j][0] || MonthNames[i][1] != MonthNames[j][1] || MonthNames[i][2] != MonthNames[j][2];
  }

  /** Each month abbreviation is found, case-insensitively, as its month. */
  lemma MonthTitleNumber(m: int)
    requires 1 <= m <= 12
    ensures IsField(MonthTitles[m - 1])
    ensures MonthNumber(MonthTitles[m - 1]) == Some(m)
  {
    TitleLowers(m);
    var i := IndexOf(MonthNames, MonthNames[m - 1]);
    if i != m - 1 {
      MonthNamesDistinct(i, m - 1);
    }
  }

  /** A number written in decimal is read back by `int.TryParse`. */
  lemma NumberReadBack(v: int)
    requires IsInt32(v)
    ensures IntOrZero(Trim(FormatInt(v))) == v
  {
    NumberField(v);
    ParseFormat(v, Int32Min, Int32Max);
  }

  /** Fields whose month, day, year and time are all read name that date, when
      it exists; the weekday field is never looked at. */
  lemma FieldsRead(parts: seq<string>, mon: int, day: int, year: int, tod: TimeOfDay,
                   parseTime: string -> Option<TimeOfDay>)
    requires |parts| >= 5
    requires MonthNumber(parts[1]) == Some(mon)
    requires IntOrZero(Trim(parts[2])) == day && day >= 0
    requires IntOrZero(Trim(parts[4])) == year && year >= 0
    requires parseTime(Trim(parts[3])) == Some(tod)
    requires IsValidDate(year, mon, day)
    ensures ReadFields(parts, parseTime) == Success(FileTime(year, mon, day, tod))
  {
  }

  /** Fields that are all read but name a date that does not exist (the 30th of
      February, day 0 from an unreadable day, year 0) are reported as such. */
  lemma NoSuchDateRejected(parts: seq<string>, mon: int, day: int, year: int, tod: TimeOfDay,
                           parseTime: string -> Option<TimeOfDay>)
    requires |parts| >= 5
    requires MonthNumber(parts[1]) == Some(mon)
    requires IntOrZero(Trim(parts[2])) == day && day >= 0
    requires IntOrZero(Trim(parts[4])) == year && year >= 0
    requires parseTime(Trim(parts[3])) == Some(tod)
    requires !IsValidDate(year, mon, day)
    ensures ReadFields(parts, parseTime) == Failure(InvalidDate(year, mon, day))
  {
    var r := ReadFields(parts, parseTime);
    assert r.Failure?;
  }

  /** A stamp with at most one field lacks its month. */
  lemma MonthMissing(parts: seq<string>, parseTime: string -> Option<TimeOfDay>)
    requires |parts| <= 1
    ensures ReadFields(parts, parseTime) == Failure(MissingField(1))
  {
  }

  /** A month field that names no month, in any letter case, is reported with
      its text. */
  lemma UnknownMonthRejected(parts: seq<string>, parseTime: string -> Option<TimeOfDay>)
    requires |parts| >= 2 && ToLower(Trim(parts[1])) !in MonthNames
    ensures ReadFields(parts, parseTime) == Failure(UnknownMonth(parts[1]))
  {
  }

  /** A stamp that stops after its month lacks its day. */
  lemma DayMissing(parts: seq<string>, parseTime: string -> Option<TimeOfDay>)
    requires |parts| == 2 && MonthNumber(parts[1]).Some?
    ensures ReadFields(parts, parseTime) == Failure(MissingField(2))
  {
  }

  /** A negative day is reported with the day's text. */
  lemma NegativeDayRejected(parts: seq<string>, parseTime: string -> Option<TimeOfDay>)
    requires |parts| >= 3 && MonthNumber(parts[1]).Some?
    requires IntOrZero(Trim(parts[2])) < 0
    ensures ReadFields(parts, parseTime) == Failure(UnknownDay(parts[2]))
  {
  }

  /** A stamp of three or four fields lacks its year; the time field is not
      looked at first. */
  lemma YearMissing(parts: seq<string>, parseTime: string -> Option<TimeOfDay>)
    requires 3 <= |parts| <= 4 && MonthNumber(parts[1]).Some?
    requires IntOrZero(Trim(parts[2])) >= 0
    ensures ReadFields(parts, parseTime) == Failure(MissingField(4))
  {
  }

  /** A negative year is reported with the day's message and the day's text,
      not the year's. */
  lemma NegativeYearReportsDay(parts: seq<string>, parseTime: string -> Option<TimeOfDay>)
    requires |parts| >= 5 && MonthNumber(parts[1]).Some?
    requires IntOrZero(Trim(parts[2])) >= 0
    requires IntOrZero(Trim(parts[4])) < 0
    ensures ReadFields(parts, parseTime) == Failure(UnknownDay(parts[2]))
  {
  }

  /** A time field the time parser refuses is reported with its text. */
  lemma TimeRejected(parts: seq<string>, parseTime: string -> Option<TimeOfDay>)
    requires |parts| >= 5 && MonthNumber(parts[1]).Some?
    requires IntOrZero(Trim(parts[2])) >= 0
    requires IntOrZero(Trim(parts[4])) >= 0
    requires parseTime(Trim(parts[3])) == None
    ensures ReadFields(parts, parseTime) == Failure(InvalidTime(parts[3]))
  {
  }

  /** A day that is not a number is read as 0 and so reported as the date with
      day 0, not as an unknown day. */
  lemma UnreadableDayIsZero(parts: seq<string>, mon: int, year: int, tod: TimeOfDay,
                            parseTime: string -> Option<TimeOfDay>)
    requires |parts| >= 5
    requires MonthNumber(parts[1]) == Some(mon)
    requires ParseInt32(Trim(parts[2])) == None
    requires IntOrZero(Trim(parts[4])) == year && year >= 0
    requires parseTime(Trim(parts[3])) == Some(tod)
    ensures ReadFields(parts, parseTime) == Failure(InvalidDate(year, mon, 0))
  {
    NoSuchDateRejected(parts, mon, 0, year, tod, parseTime);
  }

  /** Two field lists that agree everywhere except possibly at the weekday,
      `parts[0]`, once all fields up to the year are present. */
  lemma SameDateFields(p: seq<string>, q: seq<string>, parseTime: string -> Option<TimeOfDay>)
    requires |p| == |q| && |p| >= 5
    requires p[1] == q[1] && p[2] == q[2] && p[3] == q[3] && p[4] == q[4]
    ensures ReadFields(p, parseTime) == ReadFields(q, parseTime)
  {
    match MonthNumber(p[1])
    case None =>
      UnknownMonthRejected(p, parseTime);
      UnknownMonthRejected(q, parseTime);
    case Some(mon) =>
      var day := IntOrZero(Trim(p[2]));
      var year := IntOrZero(Trim(p[4]));
      if day < 0 {
        NegativeDayRejected(p, parseTime);
        NegativeDayRejected(q, parseTime);
      } else if year < 0 {
        NegativeYearReportsDay(p, parseTime);
        NegativeYearReportsDay(q, parseTime);
      } else {
        match parseTime(Trim(p[3]))
        case None =>
          TimeRejected(p, parseTime);
          TimeRejected(q, parseTime);
        case Some(tod) =>
          if IsValidDate(year, mon, day) {
            FieldsRead(p, mon, day, year, tod, parseTime);
            FieldsRead(q, mon, day, year, tod, parseTime);
          } else {
            NoSuchDateRejected(p, mon, day, year, tod, parseTime);
            NoSuchDateRejected(q, mon, day, year, tod, parseTime);
          }
      }
  }

  /** The same for field lists that stop before the year. */
  lemma SameShortFields(p: seq<string>, q: seq<string>, parseTime: string -> Option<TimeOfDay>)
    requires |p| == |q| && |p| < 5
    requires forall i :: 1 <= i < |p| ==> p[i] == q[i]
    ensures ReadFields(p, parseTime) == ReadFields(q, parseTime)
  {
    if |p| <= 1 {
      MonthMissing(p, parseTime);
      MonthMissing(q, parseTime);
    } else {
      assert p[1] == q[1];
      match MonthNumber(p[1])
      case None =>
        UnknownMonthRejected(p, parseTime);
        UnknownMonthRejected(q, parseTime);
      case Some(mon) =>
        if |p| == 2 {
          DayMissing(p, parseTime);
          DayMissing(q, parseTime);
        } else {
          assert p[2] == q[2];
          if IntOrZero(Trim(p[2])) < 0 {
            NegativeDayRejected(p, parseTime);
            NegativeDayRejected(q, parseTime);
          } else {
            YearMissing(p, parseTime);
            YearMissing(q, parseTime);
          }
        }
    }
  }

  /** The weekday field is never looked at: any other weekday gives the same
      result. */
  lemma WeekdayIgnored(parts: seq<string>, weekday: string, parseTime: string -> Option<TimeOfDay>)
    requires |parts| > 0
    ensures ReadFields(parts[0 := weekday], parseTime) == ReadFields(parts, parseTime)
  {
    var renamed := parts[0 := weekday];
    assert |renamed| == |parts|;
    assert forall i :: 1 <= i < |parts| ==> renamed[i] == parts[i];
    if |parts| >= 5 {
      SameDateFields(renamed, parts, parseTime);
    } else {
      SameShortFields(renamed, parts, parseTime);
    }
  }

  /** A stamp built from fields consists of fields. */
  lemma StampIsFields(weekday: string, month: string, day: string, clock: string, year: string)
    requires IsField(weekday) && IsField(month) && IsField(day) && IsField(clock) && IsField(year)
    ensures AllFields(StampFields(weekday, month, day, clock, year))
  {
  }

  /** The dates `new DateTime(year, month, day)` accepts follow the Gregorian
      calendar: February 29 only in leap years, which skip centuries not
      divisible by 400, and day 31 only in the seven long months. */
  lemma CalendarDates(year: int, month: int, day: int)
    ensures IsValidDate(year, month, day) ==> 1 <= day <= 31
    ensures IsValidDate(year, 2, 29) <==> 1 <= year <= 9999 && IsLeapYear(year)
    ensures IsValidDate(year, month, 31) <==>
      1 <= year <= 9999 && (month == 1 || month == 3 || month == 5 || month == 7 || month == 8 || month == 10 || month == 12)
    ensures !IsValidDate(1900, 2, 29) && IsValidDate(2000, 2, 29)
    ensures !IsValidDate(0, 1, 1) && IsValidDate(9999, 12, 31) && !IsValidDate(10000, 1, 1)
  {
  }

  /** The day and year of an existing date fit in an `int`. */
  lemma DateInRange(year: int, month: int, day: int)
    requires IsValidDate(year, month, day)
    ensures IsInt32(year) && IsInt32(day)
  {
    assert DaysInMonth(year, month) <= 31;
  }

  /** A time stamp splits into the fields it was written from, however many
      spaces separate them. */
  lemma StampSplits(weekday: string, ft: FileTime, clock: string, gaps: seq<nat>)
    requires IsField(weekday) && IsField(clock)
    requires 1 <= ft.month <= 12
    requires |gaps| == 4 && forall i :: 0 <= i < 4 ==> gaps[i] > 0
    ensures Split(Trim(SpacedStamp(weekday, ft, clock, gaps)), ' ')
      == StampFields(weekday, MonthTitles[ft.month - 1], FormatInt(ft.day), clock, FormatInt(ft.year))
  {
    MonthTitleNumber(ft.month);
    NumberField(ft.day);
    NumberField(ft.year);
    StampIsFields(weekday, MonthTitles[ft.month - 1], FormatInt(ft.day), clock, FormatInt(ft.year));
    LastGap(gaps);
    FieldsOf(StampFields(weekday, MonthTitles[ft.month - 1], FormatInt(ft.day), clock, FormatInt(ft.year)), gaps + [0]);
  }

  /** The gaps between the five fields, with none after the last. */
  lemma LastGap(gaps: seq<nat>)
    requires |gaps| == 4 && forall i :: 0 <= i < 4 ==> gaps[i] > 0
    ensures |gaps + [0]| == 5 && (gaps + [0])[4] == 0
    ensures forall i :: 0 <= i < |gaps + [0]| - 1 ==> (gaps + [0])[i] > 0
  {
    forall i | 0 <= i < |gaps + [0]| - 1 ensures (gaps + [0])[i] > 0 {
      assert (gaps + [0])[i] == gaps[i];
    }
  }

  /** The fields of a time stamp are read as the date they were written from. */
  lemma StampFieldsRead(weekday: string, ft: FileTime, clock: string, parseTime: string -> Option<TimeOfDay>)
    requires IsField(clock)
    requires IsValidDate(ft.year, ft.month, ft.day)
    requires parseTime(clock) == Some(ft.timeOfDay)
    ensures ReadFields(StampFields(weekday, MonthTitles[ft.month - 1], FormatInt(ft.day), clock, FormatInt(ft.year)), parseTime)
      == Success(ft)
  {
    MonthTitleNumber(ft.month);
    DateInRange(ft.year, ft.month, ft.day);
    NumberReadBack(ft.day);
    NumberReadBack(ft.year);
    TrimField(clock);
    NamedFieldsRead(weekday, MonthTitles[ft.month - 1], FormatInt(ft.day), clock, FormatInt(ft.year), ft, parseTime);
  }

  /** Stamp fields each read as the part of `ft` they stand for give `ft`. */
  lemma NamedFieldsRead(weekday: string, month: string, day: string, clock: string, year: string,
                        ft: FileTime, parseTime: string -> Option<TimeOfDay>)
    requires MonthNumber(month) == Some(ft.month)
    requires IntOrZero(Trim(day)) == ft.day && ft.day >= 0
    requires IntOrZero(Trim(year)) == ft.year && ft.year >= 0
    requires parseTime(Trim(clock)) == Some(ft.timeOfDay)
    requires IsValidDate(ft.year, ft.month, ft.day)
    ensures ReadFields(StampFields(weekday, month, day, clock, year), parseTime) == Success(ft)
  {
    FieldsRead(StampFields(weekday, month, day, clock, year), ft.month, ft.day, ft.year, ft.timeOfDay, parseTime);
  }

  /** A time stamp is read back as the date it was written from, whatever its
      weekday field says and however many spaces separate its fields. */
  lemma FileTimeRoundTrip(weekday: string, ft: FileTime, clock: string, gaps: seq<nat>,
                          parseTime: string -> Option<TimeOfDay>)
    requires IsField(weekday) && IsField(clock)
    requires IsValidDate(ft.year, ft.month, ft.day)
    requires |gaps| == 4 && forall i :: 0 <= i < 4 ==> gaps[i] > 0
    requires parseTime(clock) == Some(ft.timeOfDay)
    ensures ParseDuplicityFileTime(SpacedStamp(weekday, ft, clock, gaps), parseTime) == Success(ft)
  {
    StampSplits(weekday, ft, clock, gaps);
    StampFieldsRead(weekday, ft, clock, parseTime);
  }

  /** In particular a stamp in the asctime layout, with a one-digit day padded
      by a second space, is read back as its date. */
  lemma AsctimeRoundTrip(weekday: string, ft: FileTime, clock: string, parseTime: string -> Option<TimeOfDay>)
    requires IsField(weekday) && IsField(clock)
    requires IsValidDate(ft.year, ft.month, ft.day)
    requires parseTime(clock) == Some(ft.timeOfDay)
    ensures ParseDuplicityFileTime(FormatFileTime(weekday, ft, clock), parseTime) == Success(ft)
  {
    var gaps: seq<nat> := [1, DayGap(ft.day), 1, 1];
    assert forall i :: 0 <= i < 4 ==> gaps[i] > 0;
    FileTimeRoundTrip(weekday, ft, clock, gaps, parseTime);
  }
}

=== FILE: numbers.dfy ===
/** Integer text as .NET reads it with `NumberStyles.Integer` (`int.TryParse`,
    `long.TryParse`), and the decimal rendering that such a parse inverts. */
module Numbers {
  import opened Wrappers
  import opened Text

  const Int32Min: int := -0x8000_0000
  const Int32Max: int := 0x7FFF_FFFF
  const Int64Min: int := -0x8000_0000_0000_0000
  const Int64Max: int := 0x7FFF_FFFF_FFFF_FFFF

  predicate IsInt32(v: int) {
    Int32Min <= v <= Int32Max
  }

  predicate IsInt64(v: int) {
    Int64Min <= v <= Int64Max
  }

  predicate IsDigit(c: char) {
    '0' <= c <= '9'
  }

  /** The white space `NumberStyles.AllowLeadingWhite` and `AllowTrailingWhite`
      accept: U+0009 to U+000D and the space. */
  predicate IsNumberWhite(c: char) {
    ('\t' <= c <= '\r') || c == ' '
  }

  /** A character that may occur anywhere in text `NumberStyles.Integer` accepts. */
  predicate IsNumberChar(c: char) {
    IsDigit(c) || c == '-' || c == '+' || IsNumberWhite(c)
  }

  predicate AllDigits(s: string) {
    forall i :: 0 <= i < |s| ==> IsDigit(s[i])
  }

  function DigitValue(c: char): nat
    requires IsDigit(c)
  {
    c as int - '0' as int
  }

  function DigitChar(d: nat): char
    requires d < 10
  {
    ('0' as int + d) as char
  }

  /** The value of a run of decimal digits, most significant first. */
  function DigitsValue(ds: string): nat
    requires AllDigits(ds)
  {
    if |ds| == 0 then 0 else DigitsValue(ds[..|ds| - 1]) * 10 + DigitValue(ds[|ds| - 1])
  }

  /** Decimal digits of `n`, without leading zeros. */
  function FormatNat(n: nat): (r: string)
    ensures |r| > 0 && AllDigits(r)
  {
    if n < 10 then [DigitChar(n)] else FormatNat(n / 10) + [DigitChar(n % 10)]
  }

  /** `v.ToString()`: a minus sign for negative values, then the digits. */
  function FormatInt(v: int): (r: string)
    ensures |r| > 0
    ensures r[0] == '-' <==> v < 0
    ensures IsDigit(r[0]) <==> v >= 0
    ensures forall i :: 1 <= i < |r| ==> IsDigit(r[i])
  {
    if v < 0 then "-" + FormatNat(-v) else FormatNat(v)
  }

  /** `t` without a leading sign, if it has one. */
  function Unsigned(t: string): string {
    if |t| > 0 && (t[0] == '-' || t[0] == '+') then t[1..] else t
  }

  /** The shape `NumberStyles.Integer` accepts once the white space around it
      is removed: an optional `+` or `-`, then one or more digits and nothing
      else. */
  predicate IsSignedNumber(t: string) {
    |Unsigned(t)| > 0 && AllDigits(Unsigned(t))
  }

  /** The value of such text: its digits, negated after a `-`. */
  function SignedNumberValue(t: string): int
    requires IsSignedNumber(t)
  {
    var magnitude := DigitsValue(Unsigned(t)) as int;
    if t[0] == '-' then -magnitude else magnitude
  }

  /** An optional sign followed by at least one digit, with no white space. */
  function ParseSigned(t: string): (r: Option<int>)
    ensures r.Some? <==> IsSignedNumber(t)
    ensures r.Some? ==> r.value == SignedNumberValue(t)
    ensures r.Some? ==> |t| > 0 && IsDigit(t[|t| - 1])
    ensures r.Some? ==> forall k :: 0 <= k < |t| ==> IsNumberChar(t[k])
  {
    if |t| == 0 then None
    else
      var signed := t[0] == '-' || t[0] == '+';
      var digits := if signed then t[1..] else t;
      if |digits| == 0 || !AllDigits(digits) then None
      else
        assert forall k :: 0 <= k < |t| ==> IsNumberChar(t[k]) by {
          forall k | 0 <= k < |t| ensures IsNumberChar(t[k]) {
            if k > 0 || !signed {
              assert t[k] == digits[if signed then k - 1 else k];
            }
          }
        }
        assert t[|t| - 1] == digits[|digits| - 1];
        var magnitude := DigitsValue(digits) as int;
        Some(if t[0] == '-' then -magnitude else magnitude)
  }

  /** `TryParse` with `NumberStyles.Integer` into a type ranging over `lo..hi`:
      optional white space, an optional sign, at least one digit, optional white
      space. A value outside the range is a failure, as an overflow is in .NET. */
  function ParseInteger(s: string, lo: int, hi: int): (r: Option<int>)
    ensures r.Some? <==>
      && IsSignedNumber(TrimBy(s, IsNumberWhite))
      && lo <= SignedNumberValue(TrimBy(s, IsNumberWhite)) <= hi
    ensures r.Some? ==> r.value == SignedNumberValue(TrimBy(s, IsNumberWhite))
    ensures r.Some? ==> lo <= r.value <= hi
    ensures r.Some? ==> forall i :: 0 <= i < |s| ==> IsNumberChar(s[i])
    ensures r.Some? ==> exists i :: 0 <= i < |s| && IsDigit(s[i])
  {
    var t := TrimBy(s, IsNumberWhite);
    match ParseSigned(t)
    case None => None
    case Some(v) =>
      if lo <= v <= hi then
        AcceptedText(s);
        Some(v)
      else None
  }

  /** Text whose trimmed form is a signed number holds only number characters,
      at least one of them a digit. */
  lemma AcceptedText(s: string)
    requires ParseSigned(TrimBy(s, IsNumberWhite)).Some?
    ensures forall i :: 0 <= i < |s| ==> IsNumberChar(s[i])
    ensures exists i :: 0 <= i < |s| && IsDigit(s[i])
  {
    var t := TrimBy(s, IsNumberWhite);
    var i := SkipWhite(s, IsNumberWhite, 0);
    assert forall k :: i <= k < i + |t| ==> s[k] == t[k - i];
    assert IsDigit(s[i + |t| - 1]);
  }

  /** `int.TryParse(s, NumberStyles.Integer, null, out v)`. */
  function ParseInt32(s: string): (r: Option<int>)
    ensures r.Some? ==> IsInt32(r.value)
  {
    ParseInteger(s, Int32Min, Int32Max)
  }

  /** `long.TryParse(s, NumberStyles.Integer, null, out v)`. */
  function ParseInt64(s: string): (r: Option<int>)
    ensures r.Some? ==> IsInt64(r.value)
  {
    ParseInteger(s, Int64Min, Int64Max)
  }

  /** Text that is a signed number once its number white space is trimmed, with
      a value in range, is accepted with that value. */
  lemma SignedNumberAccepted(s: string, lo: int, hi: int)
    requires IsSignedNumber(TrimBy(s, IsNumberWhite))
    requires lo <= SignedNumberValue(TrimBy(s, IsNumberWhite)) <= hi
    ensures ParseInteger(s, lo, hi) == Some(SignedNumberValue(TrimBy(s, IsNumberWhite)))
  {
  }

  /** White space inside the number, a sign after it and a doubled sign are all
      rejected. */
  lemma MisshapenRejected(lo: int, hi: int)
    ensures ParseInteger("1 2", lo, hi).None?
    ensures ParseInteger("1-2", lo, hi).None?
    ensures ParseInteger("+-1", lo, hi).None?
    ensures ParseInteger("5+", lo, hi).None?
  {
    assert !IsDigit(' ') && !IsDigit('-') && !IsDigit('+');
    assert TrimBy("1 2", IsNumberWhite) == "1 2";
    assert "1 2"[1] == ' ';
    assert TrimBy("1-2", IsNumberWhite) == "1-2";
    assert "1-2"[1] == '-';
    assert TrimBy("+-1", IsNumberWhite) == "+-1";
    assert Unsigned("+-1")[0] == '-';
    assert TrimBy("5+", IsNumberWhite) == "5+";
    assert "5+"[1] == '+';
  }

  /** Reading back the digits of `n` gives `n`. */
  lemma {:induction false} DigitsOfFormatNat(n: nat)
    ensures DigitsValue(FormatNat(n)) == n
  {
    if n >= 10 {
      var front := FormatNat(n / 10);
      var ds := front + [DigitChar(n % 10)];
      assert ds[..|ds| - 1] == front;
      DigitsOfFormatNat(n / 10);
    }
  }

  /** Reading back the rendering of `v` gives `v`. */
  lemma ParseSignedFormat(v: int)
    ensures ParseSigned(FormatInt(v)) == Some(v)
  {
    var s := FormatInt(v);
    if v < 0 {
      assert s[1..] == FormatNat(-v);
      DigitsOfFormatNat(-v);
    } else {
      DigitsOfFormatNat(v);
    }
  }

  /** Parsing the decimal rendering of an in-range value gives the value back. */
  lemma ParseFormat(v: int, lo: int, hi: int)
    requires lo <= v <= hi
    ensures ParseInteger(FormatInt(v), lo, hi) == Some(v)
  {
    var s := FormatInt(v);
    assert TrimBy(s, IsNumberWhite) == s;
    ParseSignedFormat(v);
  }
}

=== FILE: text.dfy ===
/** The pieces of `System.String` that the parser and the loader rely on:
    `Trim`, `ToLower`, `IndexOfAny` and `Split` with `RemoveEmptyEntries`. */
module Text {
  import opened Wrappers

  /** `char.IsWhiteSpace`: the Unicode White_Space characters, which is what
      `String.Trim()` removes from both ends. */
  predicate IsWhiteSpace(c: char) {
    || ('\t' <= c <= '\r')
    || c == ' '
    || c == '\U{85}'
    || c == '\U{A0}'
    || c == '\U{1680}'
    || ('\U{2000}' <= c <= '\U{200A}')
    || c == '\U{2028}'
    || c == '\U{2029}'
    || c == '\U{202F}'
    || c == '\U{205F}'
    || c == '\U{3000}'
  }

  /** The first position at or after `i` that does not hold white. */
  function SkipWhite(s: string, white: char -> bool, i: nat): (j: nat)
    requires i <= |s|
    ensures i <= j <= |s|
    ensures forall k :: i <= k < j ==> white(s[k])
    ensures j < |s| ==> !white(s[j])
    decreases |s| - i
  {
    if i < |s| && white(s[i]) then SkipWhite(s, white, i + 1) else i
  }

  /** The end of `s[lo..j]` once trailing white is dropped. */
  function SkipWhiteBack(s: string, white: char -> bool, lo: nat, j: nat): (e: nat)
    requires lo <= j <= |s|
    ensures lo <= e <= j
    ensures forall k :: e <= k < j ==> white(s[k])
    ensures e > lo ==> !white(s[e - 1])
    decreases j
  {
    if j > lo && white(s[j - 1]) then SkipWhiteBack(s, white, lo, j - 1) else j
  }

  /** Drops white characters from both ends: nothing but white is removed, and
      what remains neither starts nor ends with white. */
  function TrimBy(s: string, white: char -> bool): (r: string)
    ensures var i := SkipWhite(s, white, 0);
      && i + |r| <= |s| && r == s[i..i + |r|]
      && (forall k :: 0 <= k < i ==> white(s[k]))
      && (forall k :: i + |r| <= k < |s| ==> white(s[k]))
    ensures |r| == 0 <==> forall k :: 0 <= k < |s| ==> white(s[k])
    ensures |r| > 0 ==> !white(r[0]) && !white(r[|r| - 1])
    ensures |s| > 0 && !white(s[0]) ==> |r| > 0 && r[0] == s[0]
    ensures |s| > 0 && !white(s[0]) && !white(s[|s| - 1]) ==> r == s
  {
    var i := SkipWhite(s, white, 0);
    var e := SkipWhiteBack(s, white, i, |s|);
    s[i..e]
  }

  /** `String.Trim()`. */
  function Trim(s: string): string {
    TrimBy(s, IsWhiteSpace)
  }

  /** Lower-casing of one character, restricted to ASCII letters. */
  function ToLowerChar(c: char): char {
    if 'A' <= c <= 'Z' then (c as int + 32) as char else c
  }

  /** `String.ToLower()`, restricted to ASCII letters. */
  function ToLower(s: string): (r: string)
    ensures |r| == |s|
    ensures forall i :: 0 <= i < |s| ==> r[i] == ToLowerChar(s[i])
  {
    seq(|s|, i requires 0 <= i < |s| => ToLowerChar(s[i]))
  }

  /** `s.IndexOfAny(chars, from)`: the first position at or after `from` that holds
      one of `chars`; `None` is the C# result -1. */
  function IndexOfAny(s: string, chars: set<char>, from: nat): (r: Option<nat>)
    requires from <= |s|
    ensures r.Some? ==> from <= r.value < |s| && s[r.value] in chars
    ensures r.Some? ==> forall k :: from <= k < r.value ==> s[k] !in chars
    ensures r.None? <==> forall k :: from <= k < |s| ==> s[k] !in chars
    decreases |s| - from
  {
    if from == |s| then None
    else if s[from] in chars then Some(from)
    else IndexOfAny(s, chars, from + 1)
  }

  /** The characters of `s` other than `sep`, in order. */
  function Without(s: string, sep: char): string {
    if |s| == 0 then []
    else (if s[0] == sep then [] else [s[0]]) + Without(s[1..], sep)
  }

  /** The concatenation of all parts. */
  function Flatten(parts: seq<string>): string {
    if |parts| == 0 then [] else parts[0] + Flatten(parts[1..])
  }

  lemma FlattenCons(part: string, parts: seq<string>)
    ensures Flatten([part] + parts) == part + Flatten(parts)
  {
    assert ([part] + parts)[1..] == parts;
  }

  /** Splitting with the part `cur` already collected. */
  function SplitFrom(s: string, sep: char, cur: string): (parts: seq<string>)
    requires sep !in cur
    ensures forall i :: 0 <= i < |parts| ==> |parts[i]| > 0 && sep !in parts[i]
    ensures Flatten(parts) == cur + Without(s, sep)
  {
    if |s| == 0 then
      assert cur + Without(s, sep) == cur;
      if |cur| == 0 then [] else FlattenCons(cur, []); [cur]
    else if s[0] == sep then
      var rest := SplitFrom(s[1..], sep, []);
      SeparatorDropped(s, sep, cur);
      if |cur| == 0 then rest
      else
        PartBefore(cur, rest, sep);
        [cur] + rest
    else
      var rest := SplitFrom(s[1..], sep, cur + [s[0]]);
      CharacterKept(s, sep, cur);
      rest
  }

  /** A separator at the front is not among the kept characters. */
  lemma SeparatorDropped(s: string, sep: char, cur: string)
    requires |s| > 0 && s[0] == sep
    ensures Without(s, sep) == Without(s[1..], sep)
    ensures cur + Without(s, sep) == cur + ([] + Without(s[1..], sep))
  {
  }

  /** Any other character at the front is kept. */
  lemma CharacterKept(s: string, sep: char, cur: string)
    requires |s| > 0 && s[0] != sep
    ensures (cur + [s[0]]) + Without(s[1..], sep) == cur + Without(s, sep)
  {
    assert Without(s, sep) == [s[0]] + Without(s[1..], sep);
  }

  /** A finished part in front of parts that are non-empty and separator-free. */
  lemma PartBefore(cur: string, rest: seq<string>, sep: char)
    requires |cur| > 0 && sep !in cur
    requires forall i :: 0 <= i < |rest| ==> |rest[i]| > 0 && sep !in rest[i]
    ensures forall i :: 0 <= i < |[cur] + rest| ==> |([cur] + rest)[i]| > 0 && sep !in ([cur] + rest)[i]
    ensures Flatten([cur] + rest) == cur + Flatten(rest)
  {
    FlattenCons(cur, rest);
    forall i | 0 <= i < |[cur] + rest| ensures |([cur] + rest)[i]| > 0 && sep !in ([cur] + rest)[i] {
      if i > 0 {
        assert ([cur] + rest)[i] == rest[i - 1];
      }
    }
  }

  /** One step of splitting at a separator. */
  lemma SplitFromSeparator(s: string, sep: char, cur: string)
    requires |s| > 0 && s[0] == sep && sep !in cur
    ensures SplitFrom(s, sep, cur) == (if |cur| == 0 then [] else [cur]) + SplitFrom(s[1..], sep, [])
  {
    if |cur| == 0 {
      assert SplitFrom(s, sep, cur) == SplitFrom(s[1..], sep, []);
      assert [] + SplitFrom(s[1..], sep, []) == SplitFrom(s[1..], sep, []);
    }
  }

  /** `s.Split(new string[] { sep }, StringSplitOptions.RemoveEmptyEntries)`: the
      maximal runs of characters other than `sep`, none of them empty, which
      together hold every character of `s` except the separators. */
  function Split(s: string, sep: char): (parts: seq<string>)
    ensures forall i :: 0 <= i < |parts| ==> |parts[i]| > 0 && sep !in parts[i]
    ensures Flatten(parts) == Without(s, sep)
  {
    SplitFrom(s, sep, [])
  }

  /** Collecting a run of non-separators just extends the current part. */
  lemma {:induction false} SplitFromToken(tok: string, rest: string, sep: char, cur: string)
    requires sep !in cur && sep !in tok
    ensures SplitFrom(tok + rest, sep, cur) == SplitFrom(rest, sep, cur + tok)
    decreases |tok|
  {
    if |tok| > 0 {
      assert (tok + rest)[0] == tok[0];
      assert (tok + rest)[1..] == tok[1..] + rest;
      assert cur + [tok[0]] + tok[1..] == cur + tok;
      SplitFromToken(tok[1..], rest, sep, cur + [tok[0]]);
    } else {
      assert tok + rest == rest;
      assert cur + tok == cur;
    }
  }

  /** `n` copies of `c`. */
  function Repeat(c: char, n: nat): (r: string)
    ensures |r| == n
    ensures forall i :: 0 <= i < n ==> r[i] == c
  {
    if n == 0 then [] else [c] + Repeat(c, n - 1)
  }

  /** The tokens, each followed by its own run of `gaps[i]` separators. */
  function Spaced(tokens: seq<string>, gaps: seq<nat>, sep: char): string
    requires |gaps| == |tokens|
  {
    if |tokens| == 0 then []
    else tokens[0] + (Repeat(sep, gaps[0]) + Spaced(tokens[1..], gaps[1..], sep))
  }

  /** A non-empty run of separators starts with one, followed by the shorter run. */
  lemma RunFront(sep: char, n: nat, rest: string)
    requires n > 0
    ensures |Repeat(sep, n) + rest| > 0 && (Repeat(sep, n) + rest)[0] == sep
    ensures (Repeat(sep, n) + rest)[1..] == Repeat(sep, n - 1) + rest
  {
    assert Repeat(sep, n) + rest == [sep] + (Repeat(sep, n - 1) + rest);
  }

  /** A run of separators before any part is collected is skipped. */
  lemma {:induction false} SplitFromRun(n: nat, rest: string, sep: char)
    ensures SplitFrom(Repeat(sep, n) + rest, sep, []) == SplitFrom(rest, sep, [])
    decreases n
  {
    if n > 0 {
      RunFront(sep, n, rest);
      SplitFromSeparator(Repeat(sep, n) + rest, sep, []);
      SplitFromRun(n - 1, rest, sep);
    } else {
      assert Repeat(sep, n) + rest == rest;
    }
  }

  /** A run of one or more separators ends the part being collected, and the
      run itself yields no part. */
  lemma SplitFromGap(tok: string, n: nat, rest: string, sep: char)
    requires |tok| > 0 && sep !in tok && n > 0
    ensures SplitFrom(Repeat(sep, n) + rest, sep, tok) == [tok] + SplitFrom(rest, sep, [])
  {
    RunFront(sep, n, rest);
    SplitFromSeparator(Repeat(sep, n) + rest, sep, tok);
    SplitFromRun(n - 1, rest, sep);
  }

  /** Tokens separated by runs of one or more separators, the last one followed
      by any number of them, are split back into the tokens. */
  lemma {:induction false} SpacedSplits(tokens: seq<string>, gaps: seq<nat>, sep: char)
    requires |gaps| == |tokens|
    requires forall i :: 0 <= i < |tokens| ==> |tokens[i]| > 0 && sep !in tokens[i]
    requires forall i :: 0 <= i < |gaps| - 1 ==> gaps[i] > 0
    ensures SplitFrom(Spaced(tokens, gaps, sep), sep, []) == tokens
  {
    if |tokens| > 0 {
      var tok := tokens[0];
      var rest := Spaced(tokens[1..], gaps[1..], sep);
      SplitFromToken(tok, Repeat(sep, gaps[0]) + rest, sep, []);
      assert [] + tok == tok;
      if gaps[0] > 0 {
        SplitFromGap(tok, gaps[0], rest, sep);
        assert forall i :: 0 <= i < |gaps[1..]| - 1 ==> gaps[1..][i] > 0 by {
          forall i | 0 <= i < |gaps[1..]| - 1 ensures gaps[1..][i] > 0 {
            assert gaps[1..][i] == gaps[i + 1];
          }
        }
        SpacedSplits(tokens[1..], gaps[1..], sep);
        assert tokens == [tok] + tokens[1..];
      } else {
        assert |tokens| == 1;
        assert Repeat(sep, gaps[0]) + rest == [];
      }
    }
  }

  /** `Split` with `RemoveEmptyEntries` undoes spacing tokens apart with runs of
      separators of any length, including runs before the first token and after
      the last. */
  lemma SplitSpaced(lead: nat, tokens: seq<string>, gaps: seq<nat>, sep: char)
    requires |gaps| == |tokens|
    requires forall i :: 0 <= i < |tokens| ==> |tokens[i]| > 0 && sep !in tokens[i]
    requires forall i :: 0 <= i < |gaps| - 1 ==> gaps[i] > 0
    ensures Split(Repeat(sep, lead) + Spaced(tokens, gaps, sep), sep) == tokens
  {
    SplitFromRun(lead, Spaced(tokens, gaps, sep), sep);
    SpacedSplits(tokens, gaps, sep);
  }

  /** `s`, after the part `cur` collected so far, is `parts` spaced apart by the
      runs `gaps`, preceded by `lead` separators when nothing was collected. */
  predicate LaidOut(s: string, sep: char, cur: string, parts: seq<string>, lead: nat, gaps: seq<nat>) {
    && |gaps| == |parts|
    && (forall i :: 0 <= i < |gaps| - 1 ==> gaps[i] > 0)
    && (if |cur| > 0 then lead == 0 && cur + s == Spaced(parts, gaps, sep)
        else s == Repeat(sep, lead) + Spaced(parts, gaps, sep))
  }

  /** One token and its run in front of spaced tokens. */
  lemma SpacedCons(tok: string, gap: nat, tokens: seq<string>, gaps: seq<nat>, sep: char)
    requires |gaps| == |tokens|
    ensures Spaced([tok] + tokens, [gap] + gaps, sep) == tok + (Repeat(sep, gap) + Spaced(tokens, gaps, sep))
  {
    assert ([tok] + tokens)[1..] == tokens && ([gap] + gaps)[1..] == gaps;
  }

  /** A positive run in front of runs that are positive except perhaps the last. */
  lemma PositiveCons(g: nat, gaps: seq<nat>)
    requires g > 0 && forall i :: 0 <= i < |gaps| - 1 ==> gaps[i] > 0
    ensures forall i :: 0 <= i < |[g] + gaps| - 1 ==> ([g] + gaps)[i] > 0
  {
    forall i | 0 <= i < |[g] + gaps| - 1 ensures ([g] + gaps)[i] > 0 {
      if i > 0 {
        assert ([g] + gaps)[i] == gaps[i - 1];
      }
    }
  }

  /** The end of the text: the part collected so far, if any, is the last. */
  lemma LayoutEnd(sep: char, cur: string)
    ensures LaidOut([], sep, cur, if |cur| == 0 then [] else [cur], 0, if |cur| == 0 then [] else [0])
  {
    if |cur| > 0 {
      SpacedCons(cur, 0, [], [], sep);
      assert [cur] + [] == [cur] && [0] + [] == [0];
    }
  }

  /** A separator before any part lengthens the leading run. */
  lemma LayoutLead(s: string, sep: char, parts: seq<string>, lead: nat, gaps: seq<nat>)
    requires |s| > 0 && s[0] == sep
    requires LaidOut(s[1..], sep, [], parts, lead, gaps)
    ensures LaidOut(s, sep, [], parts, lead + 1, gaps)
  {
    assert s == [sep] + s[1..];
  }

  /** A separator after a collected part ends that part and starts its run. */
  lemma LayoutGap(s: string, sep: char, cur: string, parts: seq<string>, lead: nat, gaps: seq<nat>)
    requires |s| > 0 && s[0] == sep && |cur| > 0
    requires LaidOut(s[1..], sep, [], parts, lead, gaps)
    ensures LaidOut(s, sep, cur, [cur] + parts, 0, [lead + 1] + gaps)
  {
    var rest := Spaced(parts, gaps, sep);
    SpacedCons(cur, lead + 1, parts, gaps, sep);
    assert Repeat(sep, lead + 1) == [sep] + Repeat(sep, lead);
    assert s == [sep] + s[1..];
    assert s == Repeat(sep, lead + 1) + rest;
    PositiveCons(lead + 1, gaps);
  }

  /** Any other character extends the part being collected. */
  lemma LayoutToken(s: string, sep: char, cur: string, parts: seq<string>, lead: nat, gaps: seq<nat>)
    requires |s| > 0
    requires LaidOut(s[1..], sep, cur + [s[0]], parts, lead, gaps)
    ensures LaidOut(s, sep, cur, parts, lead, gaps)
  {
    assert s == [s[0]] + s[1..];
    assert (cur + [s[0]]) + s[1..] == cur + s;
    if |cur| == 0 {
      assert cur + s == s;
      assert Repeat(sep, 0) + s == s;
    }
  }

  /** The runs of separators around the parts `SplitFrom` collects. */
  function LayoutFrom(s: string, sep: char, cur: string): (r: (nat, seq<nat>))
    requires sep !in cur
    ensures LaidOut(s, sep, cur, SplitFrom(s, sep, cur), r.0, r.1)
    decreases |s|
  {
    if |s| == 0 then
      LayoutEnd(sep, cur);
      (0, if |cur| == 0 then [] else [0])
    else if s[0] == sep then
      var rest := LayoutFrom(s[1..], sep, []);
      if |cur| == 0 then
        LayoutLead(s, sep, SplitFrom(s[1..], sep, []), rest.0, rest.1);
        (rest.0 + 1, rest.1)
      else
        LayoutGap(s, sep, cur, SplitFrom(s[1..], sep, []), rest.0, rest.1);
        (0, [rest.0 + 1] + rest.1)
    else
      var rest := LayoutFrom(s[1..], sep, cur + [s[0]]);
      LayoutToken(s, sep, cur, SplitFrom(s[1..], sep, cur + [s[0]]), rest.0, rest.1);
      rest
  }

  /** Every text is the parts `Split` gives, spaced apart by runs of one or more
      separators, after a leading run: the lengths of those runs. With
      `SplitSpaced` this fixes the parts as the maximal runs of characters
      other than the separator. */
  function Layout(s: string, sep: char): (r: (nat, seq<nat>))
    ensures |r.1| == |Split(s, sep)|
    ensures forall i :: 0 <= i < |r.1| - 1 ==> r.1[i] > 0
    ensures s == Repeat(sep, r.0) + Spaced(Split(s, sep), r.1, sep)
  {
    LayoutFrom(s, sep, [])
  }

  /** Lower-casing twice is lower-casing once. */
  lemma ToLowerIdempotent(s: string)
    ensures ToLower(ToLower(s)) == ToLower(s)
  {
  }
}

=== FILE: timeparser.dfy ===
/** The duplicity-style time parser: offsets such as "3D12h" or "2W", and the
    time stamps found in duplicity file names such as "Tue Oct 14 12:00:00 2008".

    A `DateTime` offset is kept abstract: a parse yields the list of calendar
    steps (`AddSeconds`, `AddDays`, `AddMonths`, ...) that the C# code applies to
    the offset, in order. The culture-dependent `DateTime.TryParse` is a
    parameter of the model. */
module Timeparser {
  import opened Wrappers
  import opened Text
  import opened Numbers

  /** `MONTH_NAMES`, the lower-case abbreviations looked up by `IndexOf`. */
  const MonthNames: seq<string> :=
    ["jan", "feb", "mar", "apr", "may", "jun", "jul", "aug", "sep", "oct", "nov", "dec"]

  /** The unit letters the scanner splits at. 'H' is listed but has no case in
      the switch; 'Y' has a case but is not listed. */
  const Separators: set<char> := {'s', 'm', 'h', 'D', 'W', 'M', 'H'}

  /** The calendar operation a step applies to the offset. */
  datatype Unit = Second | Minute | Hour | Day | Month | Year

  /** One `offset = offset.AddX(amount)` of the parser. */
  datatype Step = Step(unit: Unit, amount: int)

  /** What `ParseTimeInterval` returns: the offset moved by `steps` (left to
      right), the wall clock, or the date the culture parser read from `text`. */
  datatype Interval = Shifted(steps: seq<Step>) | Now | ParsedDate(text: string)

  /** The three exceptions the segment scanner throws. */
  datatype ParseError =
    | BadSegment(segment: string)
    | InvalidSpecifier(spec: char)
    | UnparsedData(rest: string)

  /** The unit letters that have a case in the switch and are also separators,
      with the calendar unit and the scale each applies. */
  const UnitTable: map<char, (Unit, int)> :=
    map['s' := (Second, 1), 'm' := (Minute, 1), 'h' := (Hour, 1),
        'D' := (Day, 1), 'W' := (Day, 7), 'M' := (Month, 1)]

  /** `value * multiplier`, where `multiplier` is -1 under negation and 1 otherwise. */
  function Signed(value: int, negate: bool): int {
    if negate then -value else value
  }

  /** The switch on the unit letter, applied to an already parsed `factor`, with
      `factor * multiplier` and `factor * 7` in unbounded arithmetic. */
  function StepOf(spec: char, factor: int, negate: bool): (r: Result<Step, ParseError>)
    ensures r.Failure? <==> spec !in UnitTable && spec != 'Y'
    ensures r.Failure? ==> r.error == InvalidSpecifier(spec)
    ensures spec in UnitTable ==>
      r == Success(Step(UnitTable[spec].0, Signed(factor, negate) * UnitTable[spec].1))
    ensures spec == 'Y' ==> r == Success(Step(Year, Signed(factor, negate)))
  {
    var scaled := Signed(factor, negate);
    if spec == 's' then Success(Step(Second, scaled))
    else if spec == 'm' then Success(Step(Minute, scaled))
    else if spec == 'h' then Success(Step(Hour, scaled))
    else if spec == 'D' then Success(Step(Day, scaled))
    else if spec == 'W' then Success(Step(Day, scaled * 7))
    else if spec == 'M' then Success(Step(Month, scaled))
    else if spec == 'Y' then Success(Step(Year, scaled))
    else Failure(InvalidSpecifier(spec))
  }

  /** C# unchecked `int` arithmetic: the value modulo 2^32, read as two's complement. */
  function Wrap32(x: int): (r: int)
    ensures IsInt32(r)
    ensures (r - x) % 0x1_0000_0000 == 0
    ensures IsInt32(x) ==> r == x
  {
    var m := x % 0x1_0000_0000;
    if m > Int32Max then m - 0x1_0000_0000 else m
  }

  /** Adding a multiple of 2^32 does not change the value modulo 2^32. */
  lemma ModShift(a: int, k: int)
    ensures (a + k * 0x1_0000_0000) % 0x1_0000_0000 == a % 0x1_0000_0000
  {
  }

  /** Wrapping before multiplying by seven wraps to the same `int` as the
      exact product does. */
  lemma Wrap32Times7(x: int)
    ensures Wrap32(Wrap32(x) * 7) == Wrap32(x * 7)
  {
    var w := Wrap32(x);
    var k := (w - x) / 0x1_0000_0000;
    assert w - x == k * 0x1_0000_0000;
    assert w * 7 == x * 7 + (7 * k) * 0x1_0000_0000;
    ModShift(x * 7, 7 * k);
  }

  /** The switch exactly as written, where `factor *= multiplier` and
      `factor * 7` are 32-bit `int` products that wrap around. */
  function StepOfAsWritten(spec: char, factor: int, negate: bool): (r: Result<Step, ParseError>)
    requires IsInt32(factor)
    ensures r.Success? ==> IsInt32(r.value.amount)
    ensures r.Failure? <==> spec !in UnitTable && spec != 'Y'
    ensures r.Failure? ==> r == StepOf(spec, factor, negate)
    ensures r.Success? ==>
      && r.value.unit == StepOf(spec, factor, negate).value.unit
      && r.value.amount == Wrap32(StepOf(spec, factor, negate).value.amount)
  {
    Wrap32Times7(Signed(factor, negate));
    var scaled := Wrap32(Signed(factor, negate));
    if spec == 's' then Success(Step(Second, scaled))
    else if spec == 'm' then Success(Step(Minute, scaled))
    else if spec == 'h' then Success(Step(Hour, scaled))
    else if spec == 'D' then Success(Step(Day, scaled))
    else if spec == 'W' then Success(Step(Day, Wrap32(scaled * 7)))
    else if spec == 'M' then Success(Step(Month, scaled))
    else if spec == 'Y' then Success(Step(Year, scaled))
    else Failure(InvalidSpecifier(spec))
  }

  /** The number of unit letters in `t`. */
  function CountUnits(t: string): nat {
    if |t| == 0 then 0 else (if t[0] in Separators then 1 else 0) + CountUnits(t[1..])
  }

  lemma {:induction false} CountUnitsAppend(a: string, b: string)
    ensures CountUnits(a + b) == CountUnits(a) + CountUnits(b)
  {
    if |a| > 0 {
      assert (a + b)[1..] == a[1..] + b;
      CountUnitsAppend(a[1..], b);
    } else {
      assert a + b == b;
    }
  }

  lemma {:induction false} CountUnitsNone(t: string)
    requires forall k :: 0 <= k < |t| ==> t[k] !in Separators
    ensures CountUnits(t) == 0
  {
    if |t| > 0 {
      CountUnitsNone(t[1..]);
    }
  }

  /** A unit letter always yields a step other than `Year`, except 'H', which
      has no case. */
  lemma StepOfSeparator(spec: char, factor: int, negate: bool)
    requires spec in Separators
    ensures var r := StepOf(spec, factor, negate);
      (r.Success? && r.value.unit != Year) || r == Failure(InvalidSpecifier('H'))
  {
  }

  /** The unit letter at `index` is the only one in `s[prev..index + 1]`. */
  lemma CountUnitsAt(s: string, prev: nat, index: nat)
    requires prev <= index < |s| && s[index] in Separators
    requires forall k :: prev <= k < index ==> s[k] !in Separators
    ensures CountUnits(s[prev..]) == 1 + CountUnits(s[index + 1..])
  {
    assert s[prev..] == s[prev..index] + ([s[index]] + s[index + 1..]);
    CountUnitsAppend(s[prev..index], [s[index]] + s[index + 1..]);
    CountUnitsNone(s[prev..index]);
    assert ([s[index]] + s[index + 1..])[1..] == s[index + 1..];
  }

  /** What follows the loop: text after the last consumed unit letter must be
      white space. */
  function Finish(s: string, prev: nat): (r: Result<seq<Step>, ParseError>)
    requires prev <= |s|
    ensures r.Success? <==> forall k :: prev <= k < |s| ==> IsWhiteSpace(s[k])
    ensures r.Failure? ==> r.error == UnparsedData(s[prev..])
    ensures r.Success? ==> r.value == [] && CountUnits(s[prev..]) == 0
  {
    var rest := s[prev..];
    assert forall k :: prev <= k < |s| ==> s[k] == rest[k - prev];
    if |Trim(rest)| > 0 then Failure(UnparsedData(rest))
    else
      CountUnitsNone(rest);
      Success([])
  }

  predicate YearFree(steps: seq<Step>) {
    forall k :: 0 <= k < |steps| ==> steps[k].unit != Year
  }

  lemma YearFreeCons(step: Step, rest: seq<Step>)
    requires step.unit != Year && YearFree(rest)
    ensures YearFree([step] + rest)
  {
    assert forall k :: 1 <= k < |rest| + 1 ==> ([step] + rest)[k] == rest[k - 1];
  }

  /** The segment loop from position `prev`: find the next unit letter, parse the
      trimmed text before it as an `int`, apply that unit, continue after it.
      The loop only runs while the letter's position is greater than 0. */
  function Scan(s: string, prev: nat, negate: bool): (r: Result<seq<Step>, ParseError>)
    requires prev <= |s|
    ensures r.Success? ==> |r.value| == CountUnits(s[prev..])
    ensures r.Success? ==> YearFree(r.value)
    ensures r.Failure? && r.error.InvalidSpecifier? ==> r.error.spec == 'H'
    decreases |s| - prev, 1
  {
    var next := IndexOfAny(s, Separators, prev);
    if next.None? || next.value == 0 then Finish(s, prev)
    else ScanSegment(s, prev, next.value, negate)
  }

  /** One pass of the loop body, for the unit letter at `index`. */
  function ScanSegment(s: string, prev: nat, index: nat, negate: bool): (r: Result<seq<Step>, ParseError>)
    requires prev <= index < |s| && s[index] in Separators
    requires forall k :: prev <= k < index ==> s[k] !in Separators
    ensures r.Success? ==> |r.value| == CountUnits(s[prev..])
    ensures r.Success? ==> YearFree(r.value)
    ensures r.Failure? && r.error.InvalidSpecifier? ==> r.error.spec == 'H'
    decreases |s| - prev, 0
  {
    var partial := Trim(s[prev..index]);
    match ParseInt32(partial)
    case None => Failure(BadSegment(partial))
    case Some(factor) =>
      StepOfSeparator(s[index], factor, negate);
      match StepOf(s[index], factor, negate)
      case Failure(e) => Failure(e)
      case Success(step) =>
        var rest := Scan(s, index + 1, negate);
        CountUnitsAt(s, prev, index);
        if rest.Success? then YearFreeCons(step, rest.value); Prepend(step, rest)
        else Prepend(step, rest)
  }

  /** `step` followed by the steps of `r`, or the failure of `r`. */
  function Prepend(step: Step, r: Result<seq<Step>, ParseError>): Result<seq<Step>, ParseError> {
    match r
    case Failure(e) => Failure(e)
    case Success(rest) => Success([step] + rest)
  }

  /** `ParseTimeInterval(datestring, offset, negate)`. `isDate` stands for
      `DateTime.TryParse` under the current culture. */
  function ParseTimeInterval(s: string, negate: bool, isDate: string -> bool): (r: Result<Interval, ParseError>)
    ensures |s| == 0 ==> r == Success(Shifted([]))
    ensures r == Success(Now) <==> |s| > 0 && ToLower(Trim(s)) == "now"
    ensures r.Success? && r.value.ParsedDate? ==> r.value.text == s && isDate(s) && ParseInt64(s).None?
    ensures r.Success? && r.value.Shifted? ==> YearFree(r.value.steps)
    ensures r.Failure? && r.error.InvalidSpecifier? ==> r.error.spec == 'H'
    ensures |s| > 0 && ToLower(Trim(s)) != "now" && ParseInt64(s).None? && isDate(s)
      ==> r == Success(ParsedDate(s))
  {
    if |s| == 0 then Success(Shifted([]))
    else if ToLower(Trim(s)) == "now" then Success(Now)
    else
      match ParseInt64(s)
      case Some(l) => Success(Shifted([Step(Second, Signed(l, negate))]))
      case None =>
        if isDate(s) then Success(ParsedDate(s))
        else Shifts(Scan(s, 0, negate))
  }

  /** The offset moved by the scanned steps, or the scanner's exception. */
  function Shifts(r: Result<seq<Step>, ParseError>): Result<Interval, ParseError> {
    match r
    case Failure(e) => Failure(e)
    case Success(steps) => Success(Shifted(steps))
  }

  /** Every step with its amount negated. */
  function Negated(steps: seq<Step>): seq<Step> {
    if |steps| == 0 then [] else [Step(steps[0].unit, -steps[0].amount)] + Negated(steps[1..])
  }

  /** A parse result with every step of a shifted offset negated. */
  function Mirror(r: Result<Interval, ParseError>): Result<Interval, ParseError> {
    if r.Success? && r.value.Shifted? then Success(Shifted(Negated(r.value.steps))) else r
  }

  /** A scan result with every step negated. */
  function MirrorSteps(r: Result<seq<Step>, ParseError>): Result<seq<Step>, ParseError> {
    match r
    case Failure(e) => Failure(e)
    case Success(steps) => Success(Negated(steps))
  }

  /** `Scan` with negation is `Scan` without it, every step mirrored. */
  lemma {:induction false} ScanNegated(s: string, prev: nat)
    requires prev <= |s|
    ensures Scan(s, prev, true) == MirrorSteps(Scan(s, prev, false))
    decreases |s| - prev, 2
  {
    var next := IndexOfAny(s, Separators, prev);
    if next.Some? && next.value > 0 {
      ScanSegmentNegated(s, prev, next.value);
    }
  }

  lemma {:induction false} ScanSegmentNegated(s: string, prev: nat, index: nat)
    requires prev <= index < |s| && s[index] in Separators
    requires forall k :: prev <= k < index ==> s[k] !in Separators
    ensures ScanSegment(s, prev, index, true) == MirrorSteps(ScanSegment(s, prev, index, false))
    decreases |s| - prev, 1
  {
    var partial := Trim(s[prev..index]);
    match ParseInt32(partial)
    case None =>
      SegmentRejected(s, prev, index);
    case Some(factor) =>
      match StepOf(s[index], factor, false)
      case Failure(e) =>
        SegmentUnitRejected(s, prev, index, factor, e);
      case Success(step) =>
        SegmentStepNegated(s, prev, index, factor, step);
  }

  lemma {:induction false} SegmentStepNegated(s: string, prev: nat, index: nat, factor: int, step: Step)
    requires prev <= index < |s| && s[index] in Separators
    requires forall k :: prev <= k < index ==> s[k] !in Separators
    requires ParseInt32(Trim(s[prev..index])) == Some(factor)
    requires StepOf(s[index], factor, false) == Success(step)
    ensures ScanSegment(s, prev, index, true) == MirrorSteps(ScanSegment(s, prev, index, false))
    decreases |s| - prev, 0
  {
    SegmentContinues(s, prev, index, factor, step);
    PrependNegated(step, Scan(s, index + 1, false));
    ScanNegated(s, index + 1);
  }

  /** A segment whose text is not an `int` stops the loop, negated or not. */
  lemma SegmentRejected(s: string, prev: nat, index: nat)
    requires prev <= index < |s| && s[index] in Separators
    requires forall k :: prev <= k < index ==> s[k] !in Separators
    requires ParseInt32(Trim(s[prev..index])).None?
    ensures ScanSegment(s, prev, index, false) == Failure(BadSegment(Trim(s[prev..index])))
    ensures ScanSegment(s, prev, index, true) == Failure(BadSegment(Trim(s[prev..index])))
  {
  }

  /** A unit letter without a case stops the loop, negated or not. */
  lemma SegmentUnitRejected(s: string, prev: nat, index: nat, factor: int, e: ParseError)
    requires prev <= index < |s| && s[index] in Separators
    requires forall k :: prev <= k < index ==> s[k] !in Separators
    requires ParseInt32(Trim(s[prev..index])) == Some(factor)
    requires StepOf(s[index], factor, false) == Failure(e)
    ensures ScanSegment(s, prev, index, false) == Failure(e)
    ensures ScanSegment(s, prev, index, true) == Failure(e)
  {
    StepOfFails(s[index], factor);
  }

  /** A segment whose number and unit letter are accepted contributes its step,
      mirrored under negation, and hands over to the rest of the loop. */
  lemma SegmentContinues(s: string, prev: nat, index: nat, factor: int, step: Step)
    requires prev <= index < |s| && s[index] in Separators
    requires forall k :: prev <= k < index ==> s[k] !in Separators
    requires ParseInt32(Trim(s[prev..index])) == Some(factor)
    requires StepOf(s[index], factor, false) == Success(step)
    ensures ScanSegment(s, prev, index, false) == Prepend(step, Scan(s, index + 1, false))
    ensures ScanSegment(s, prev, index, true) == Prepend(Step(step.unit, -step.amount), Scan(s, index + 1, true))
  {
    StepOfNegated(s[index], factor, step);
    SegmentAccepted(s, prev, index, factor, false, step);
    SegmentAccepted(s, prev, index, factor, true, Step(step.unit, -step.amount));
  }

  /** The loop runs its body for the next unit letter when that letter is not
      at position 0. */
  lemma ScanAt(s: string, prev: nat, index: nat, negate: bool)
    requires prev <= |s| && IndexOfAny(s, Separators, prev) == Some(index) && index > 0
    ensures prev <= index < |s| && s[index] in Separators
    ensures forall k :: prev <= k < index ==> s[k] !in Separators
    ensures Scan(s, prev, negate) == ScanSegment(s, prev, index, negate)
  {
  }

  /** One pass of the loop that parses `factor` and applies `step`. */
  lemma SegmentAccepted(s: string, prev: nat, index: nat, factor: int, negate: bool, step: Step)
    requires prev <= index < |s| && s[index] in Separators
    requires forall k :: prev <= k < index ==> s[k] !in Separators
    requires ParseInt32(Trim(s[prev..index])) == Some(factor)
    requires StepOf(s[index], factor, negate) == Success(step)
    ensures ScanSegment(s, prev, index, negate) == Prepend(step, Scan(s, index + 1, negate))
  {
  }

  /** Negation mirrors a single step. */
  lemma StepOfNegated(spec: char, factor: int, step: Step)
    requires StepOf(spec, factor, false) == Success(step)
    ensures StepOf(spec, factor, true) == Success(Step(step.unit, -step.amount))
  {
  }

  /** Whether the unit letter is rejected does not depend on negation. */
  lemma StepOfFails(spec: char, factor: int)
    requires StepOf(spec, factor, false).Failure?
    ensures StepOf(spec, factor, true) == StepOf(spec, factor, false)
  {
  }

  lemma PrependNegated(step: Step, r: Result<seq<Step>, ParseError>)
    ensures Prepend(Step(step.unit, -step.amount), MirrorSteps(r)) == MirrorSteps(Prepend(step, r))
  {
    if r.Success? {
      assert ([step] + r.value)[1..] == r.value;
    }
  }

  /** `ParseTimeInterval(datestring, offset, true)` mirrors every step of
      `ParseTimeInterval(datestring, offset, false)` and agrees with it otherwise. */
  lemma NegateMirrors(s: string, isDate: string -> bool)
    ensures ParseTimeInterval(s, true, isDate) == Mirror(ParseTimeInterval(s, false, isDate))
  {
    if |s| > 0 && ToLower(Trim(s)) != "now" {
      match ParseInt64(s)
      case Some(l) =>
        SecondsParsed(s, l, false, isDate);
        SecondsParsed(s, l, true, isDate);
        SecondsNegated(l);
      case None =>
        if !isDate(s) {
          ScanNegated(s, 0);
          IntervalScanned(s, false, isDate);
          IntervalScanned(s, true, isDate);
          ShiftsNegated(Scan(s, 0, false));
        }
    }
  }

  /** Plain whole seconds are one step, negated under negation. */
  lemma SecondsParsed(s: string, l: int, negate: bool, isDate: string -> bool)
    requires |s| > 0 && ToLower(Trim(s)) != "now" && ParseInt64(s) == Some(l)
    ensures ParseTimeInterval(s, negate, isDate) == Success(Shifted([Step(Second, Signed(l, negate))]))
  {
  }

  lemma SecondsNegated(l: int)
    ensures Negated([Step(Second, Signed(l, false))]) == [Step(Second, Signed(l, true))]
  {
    assert [Step(Second, Signed(l, false))][1..] == [];
  }

  /** Text that is neither empty, "now", a number nor a date goes to the scanner. */
  lemma IntervalScanned(s: string, negate: bool, isDate: string -> bool)
    requires |s| > 0 && ToLower(Trim(s)) != "now" && ParseInt64(s).None? && !isDate(s)
    ensures ParseTimeInterval(s, negate, isDate) == Shifts(Scan(s, 0, negate))
  {
  }

  lemma ShiftsNegated(r: Result<seq<Step>, ParseError>)
    ensures Shifts(MirrorSteps(r)) == Mirror(Shifts(r))
  {
  }

  /** `ParseTimeInterval(datestring, offset)`: the overload without negation,
      of which the negating overload is the mirror image. */
  function ParseForward(s: string, isDate: string -> bool): (r: Result<Interval, ParseError>)
    ensures ParseTimeInterval(s, true, isDate) == Mirror(r)
  {
    NegateMirrors(s, isDate);
    ParseTimeInterval(s, false, isDate)
  }

  /** `ParseTimeSpan(datestring)`: the forward parse measured from the epoch
      `new DateTime(0)`; a span is the list of steps that lead away from it. */
  function ParseTimeSpan(s: string, isDate: string -> bool): (r: Result<Interval, ParseError>)
    ensures ParseTimeInterval(s, true, isDate) == Mirror(r)
    ensures |s| == 0 ==> r == Success(Shifted([]))
  {
    ParseForward(s, isDate)
  }

  // ---------------------------------------------------------------------------
  // Duplicity file times

  /** Ticks in a day: the bound of `DateTime.TimeOfDay`. */
  const TicksPerDay: nat := 864_000_000_000

  type TimeOfDay = t: nat | t < TicksPerDay

  /** A date built by `new DateTime(year, mon, day).Add(t.TimeOfDay)`. */
  datatype FileTime = FileTime(year: int, month: int, day: int, timeOfDay: TimeOfDay)

  /** The exceptions `ParseDuplicityFileTime` throws. `MissingField(i)` is the
      `IndexOutOfRangeException` of reading `parts[i]`. */
  datatype FileTimeError =
    | MissingField(index: nat)
    | UnknownMonth(text: string)
    | UnknownDay(text: string)
    | InvalidTime(text: string)
    | InvalidDate(year: int, month: int, day: int)

  /** `List<T>.IndexOf`: the first position holding `x`, or -1. */
  function IndexOf<T(==)>(xs: seq<T>, x: T): (r: int)
    ensures -1 <= r < |xs|
    ensures r == -1 <==> x !in xs
    ensures 0 <= r ==> xs[r] == x && forall k :: 0 <= k < r ==> xs[k] != x
  {
    if |xs| == 0 then -1
    else if xs[0] == x then 0
    else
      var i := IndexOf(xs[1..], x);
      if i < 0 then -1 else i + 1
  }

  /** The month number (1 to 12) of a field, found case-insensitively. */
  function MonthNumber(text: string): (r: Option<int>)
    ensures r.Some? <==> ToLower(Trim(text)) in MonthNames
    ensures r.Some? ==> 1 <= r.value <= 12 && MonthNames[r.value - 1] == ToLower(Trim(text))
  {
    var i := IndexOf(MonthNames, ToLower(Trim(text)));
    if i < 0 then None else Some(i + 1)
  }

  /** `int.TryParse(text, out v)` whose result is ignored: `v` is 0 on failure. */
  function IntOrZero(text: string): (v: int)
    ensures ParseInt32(text).None? ==> v == 0
    ensures ParseInt32(text).Some? ==> v == ParseInt32(text).value
  {
    match ParseInt32(text)
    case Some(v) => v
    case None => 0
  }

  predicate IsLeapYear(year: int) {
    year % 4 == 0 && (year % 100 != 0 || year % 400 == 0)
  }

  function DaysInMonth(year: int, month: int): int
    requires 1 <= month <= 12
  {
    if month == 2 then (if IsLeapYear(year) then 29 else 28)
    else if month == 4 || month == 6 || month == 9 || month == 11 then 30
    else 31
  }

  /** The arguments `new DateTime(year, month, day)` accepts. */
  predicate IsValidDate(year: int, month: int, day: int) {
    && 1 <= year <= 9999
    && 1 <= month <= 12
    && 1 <= day <= DaysInMonth(year, month)
  }

  /** `ParseDuplicityFileTime(filetime)`: fields separated by spaces, read as
      weekday, month name, day, time, year. `parseTime` stands for
      `DateTime.TryParse(..., NoCurrentDateDefault)` keeping only the time of day. */
  function ParseDuplicityFileTime(filetime: string, parseTime: string -> Option<TimeOfDay>): (r: Result<FileTime, FileTimeError>)
    ensures r.Success? ==> IsValidDate(r.value.year, r.value.month, r.value.day)
    ensures r.Success? ==>
      && |Split(Trim(filetime), ' ')| >= 5
      && MonthNumber(Split(Trim(filetime), ' ')[1]) == Some(r.value.month)
      && r.value.day == IntOrZero(Trim(Split(Trim(filetime), ' ')[2]))
      && r.value.year == IntOrZero(Trim(Split(Trim(filetime), ' ')[4]))
      && parseTime(Trim(Split(Trim(filetime), ' ')[3])) == Some(r.value.timeOfDay)
    ensures r.Failure? && r.error.UnknownMonth? ==> MonthNumber(r.error.text).None?
  {
    ReadFields(Split(Trim(filetime), ' '), parseTime)
  }

  /** The reading of the space-separated fields of a time stamp; the weekday,
      `parts[0]`, is never looked at. */
  function ReadFields(parts: seq<string>, parseTime: string -> Option<TimeOfDay>): (r: Result<FileTime, FileTimeError>)
    ensures r.Success? ==> IsValidDate(r.value.year, r.value.month, r.value.day)
    ensures r.Success? ==>
      && |parts| >= 5
      && MonthNumber(parts[1]) == Some(r.value.month)
      && r.value.day == IntOrZero(Trim(parts[2]))
      && r.value.year == IntOrZero(Trim(parts[4]))
      && parseTime(Trim(parts[3])) == Some(r.value.timeOfDay)
    ensures r.Failure? && r.error.UnknownMonth? ==> |parts| >= 2 && r.error.text == parts[1] && MonthNumber(parts[1]).None?
  {
    if |parts| <= 1 then Failure(MissingField(1))
    else
      match MonthNumber(parts[1])
      case None => Failure(UnknownMonth(parts[1]))
      case Some(mon) =>
        if |parts| <= 2 then Failure(MissingField(2))
        else
          var day := IntOrZero(Trim(parts[2]));
          if day < 0 then Failure(UnknownDay(parts[2]))
          else if |parts| <= 4 then Failure(MissingField(4))
          else
            var year := IntOrZero(Trim(parts[4]));
            // The source reports a negative year with the day's message and text.
            if year < 0 then Failure(UnknownDay(parts[2]))
            else
              match parseTime(Trim(parts[3]))
              case None => Failure(InvalidTime(parts[3]))
              case Some(tod) =>
                if IsValidDate(year, mon, day) then Success(FileTime(year, mon, day, tod))
                else Failure(InvalidDate(year, mon, day))
  }
}

=== FILE: timeparser_properties.dfy ===
/** What the duplicity-style parser promises about text written the way its
    users write it: offsets such as "1W2D-3h" are read back segment by segment,
    anything after the last unit letter must be white space, and the unit letters
    'H' and a leading unit letter are rejected. */
module TimeparserProperties {
  import opened Wrappers
  import opened Text
  import opened Numbers
  import opened Timeparser

  /** One segment of an offset: the text of a count, as written, followed by its
      unit letter. `count` is the number the text stands for. */
  datatype Segment = Segment(written: string, count: int, unit: char)

  /** A segment the loop reads as its count: the letter has a case, the text
      holds no unit letter, and trimmed it is an `int` with that value. The
      text may carry a sign, leading zeros or white space around the digits. */
  predicate Readable(seg: Segment) {
    && seg.unit in UnitTable
    && (forall k :: 0 <= k < |seg.written| ==> seg.written[k] !in Separators)
    && ParseInt32(Trim(seg.written)) == Some(seg.count)
  }

  /** Every segment is readable. */
  predicate WellFormed(segs: seq<Segment>) {
    |segs| == 0 || (Readable(segs[0]) && WellFormed(segs[1..]))
  }

  /** The text of an offset: each segment's text, then its unit letter. */
  function Render(segs: seq<Segment>): string {
    if |segs| == 0 then [] else segs[0].written + [segs[0].unit] + Render(segs[1..])
  }

  /** The segment as `int.ToString()` writes its count. */
  function Canonical(count: int, unit: char): Segment {
    Segment(FormatInt(count), count, unit)
  }

  /** What a count and unit letter mean, read from the unit table rather than
      the switch. */
  function Meaning(count: int, unit: char, negate: bool): Step
    requires unit in UnitTable
  {
    var entry := UnitTable[unit];
    Step(entry.0, Signed(count, negate) * entry.1)
  }

  function Meanings(segs: seq<Segment>, negate: bool): seq<Step>
    requires WellFormed(segs)
  {
    if |segs| == 0 then [] else [Meaning(segs[0].count, segs[0].unit, negate)] + Meanings(segs[1..], negate)
  }

  /** The switch agrees with the unit table on every letter that has a case. */
  lemma StepOfTable(spec: char, factor: int, negate: bool)
    requires spec in UnitTable
    ensures StepOf(spec, factor, negate) == Success(Meaning(factor, spec, negate))
  {
  }

  /** 'H' has no case in the switch. */
  lemma StepOfHour(factor: int)
    ensures StepOf('H', factor, false) == Failure(InvalidSpecifier('H'))
  {
  }

  /** Every letter of the unit table is a separator, and no part of a number. */
  lemma TableLetter(c: char)
    requires c in UnitTable
    ensures c in Separators && !IsNumberChar(c)
  {
  }

  /** The decimal rendering of a count holds no unit letter and no white space. */
  lemma FormatIsPlain(v: int)
    ensures forall k :: 0 <= k < |FormatInt(v)| ==> FormatInt(v)[k] !in Separators
    ensures forall k :: 0 <= k < |FormatInt(v)| ==> !IsWhiteSpace(FormatInt(v)[k])
  {
  }

  /** The rendering of a count is its own trimmed form. */
  lemma TrimFormat(v: int)
    ensures Trim(FormatInt(v)) == FormatInt(v)
  {
    FormatIsPlain(v);
  }

  /** A count written in decimal is read back by the segment parser. */
  lemma CountParses(v: int)
    requires IsInt32(v)
    ensures ParseInt32(Trim(FormatInt(v))) == Some(v)
  {
    TrimFormat(v);
    ParseFormat(v, Int32Min, Int32Max);
  }

  /** Counts written by `int.ToString()` are readable segments. */
  lemma CanonicalReadable(count: int, unit: char)
    requires IsInt32(count) && unit in UnitTable
    ensures Readable(Canonical(count, unit))
  {
    FormatIsPlain(count);
    CountParses(count);
  }

  /** Segments written as `int.ToString()` writes their counts are well formed,
      so everything below holds of them in particular. */
  lemma {:induction false} CanonicalWellFormed(segs: seq<Segment>)
    requires forall i :: 0 <= i < |segs| ==> segs[i] == Canonical(segs[i].count, segs[i].unit)
    requires forall i :: 0 <= i < |segs| ==> IsInt32(segs[i].count) && segs[i].unit in UnitTable
    ensures WellFormed(segs)
  {
    if |segs| > 0 {
      CanonicalReadable(segs[0].count, segs[0].unit);
      assert forall i :: 0 <= i < |segs| - 1 ==> segs[1..][i] == segs[i + 1];
      CanonicalWellFormed(segs[1..]);
    }
  }

  /** Counts need not be written canonically: "+007" before 'W' reads as 7. */
  lemma SignedCountReadable()
    ensures Readable(Segment("+007", 7, 'W'))
  {
    var t := "+007";
    assert Trim(t) == t && TrimBy(t, IsNumberWhite) == t;
    assert Unsigned(t) == "007";
    assert "007"[..2] == "00" && "00"[..1] == "0" && "0"[..0] == "";
    assert DigitsValue("007") == 7;
  }

  /** Text whose trimmed form is an `int` holds a digit. */
  lemma CountDigit(w: string) returns (p: nat)
    requires ParseInt32(Trim(w)).Some?
    ensures p < |w| && IsDigit(w[p])
  {
    var i := ParsedDigit(Trim(w));
    p := TrimmedAt(w, i);
  }

  /** Text that is an `int` holds a digit. */
  lemma ParsedDigit(t: string) returns (i: nat)
    requires ParseInt32(t).Some?
    ensures i < |t| && IsDigit(t[i])
  {
    i :| 0 <= i < |t| && IsDigit(t[i]);
  }

  /** Every character of the trimmed text is a character of the text. */
  lemma TrimmedAt(w: string, i: nat) returns (p: nat)
    requires i < |Trim(w)|
    ensures p < |w| && w[p] == Trim(w)[i]
  {
    p := SkipWhite(w, IsWhiteSpace, 0) + i;
  }

  /** Text whose trimmed form is an `int` is not empty. */
  lemma CountNonEmpty(w: string)
    requires ParseInt32(Trim(w)).Some?
    ensures |w| > 0
  {
    var p := CountDigit(w);
  }

  /** Text holding a digit is not the word "now", however it is trimmed and cased. */
  lemma DigitNotNow(s: string, p: nat)
    requires p < |s| && IsDigit(s[p])
    ensures ToLower(Trim(s)) != "now"
  {
    var r := Trim(s);
    var start := SkipWhite(s, IsWhiteSpace, 0);
    assert !IsWhiteSpace(s[p]);
    assert start <= p < start + |r|;
    assert r[p - start] == s[p];
    assert ToLower(r)[p - start] == s[p];
  }

  /** `IndexOfAny` finds the first position holding one of `chars`. */
  lemma IndexOfAnyAt(t: string, chars: set<char>, from: nat, i: nat)
    requires from <= i < |t| && t[i] in chars
    requires forall k :: from <= k < i ==> t[k] !in chars
    ensures IndexOfAny(t, chars, from) == Some(i)
  {
  }

  /** Where `s` holds, from `prev`, text `f` without unit letters followed by a
      unit letter, the loop runs its body for that letter. */
  lemma UnitAfter(s: string, prev: nat, f: string, index: nat, negate: bool)
    requires index == prev + |f| && 0 < |f| && index < |s|
    requires s[prev..index] == f && s[index] in Separators
    requires forall k :: 0 <= k < |f| ==> f[k] !in Separators
    ensures forall k :: prev <= k < index ==> s[k] !in Separators
    ensures Scan(s, prev, negate) == ScanSegment(s, prev, index, negate)
  {
    forall k | prev <= k < index ensures s[k] !in Separators {
      assert s[k] == s[prev..index][k - prev];
    }
    IndexOfAnyAt(s, Separators, prev, index);
    ScanAt(s, prev, index, negate);
  }

  /** Where the text from `prev` to `next` is `f` and one letter `u`, the two
      parts can be sliced off separately. */
  lemma SegmentSlices(s: string, prev: nat, f: string, u: char, next: nat)
    requires next == prev + |f| + 1 <= |s|
    requires s[prev..next] == f + [u]
    ensures s[prev..next - 1] == f && s[next - 1] == u
  {
    assert s[prev..next - 1] == s[prev..next][..|f|];
    assert s[next - 1] == s[prev..next][|f|];
  }

  /** A rendered segment at `prev` contributes its meaning and hands the text
      after its unit letter to the rest of the loop. */
  lemma RenderedSegment(s: string, prev: nat, seg: Segment, index: nat, negate: bool)
    requires Readable(seg)
    requires index == prev + |seg.written| < |s|
    requires s[prev..index] == seg.written && s[index] == seg.unit
    ensures Scan(s, prev, negate) == Prepend(Meaning(seg.count, seg.unit, negate), Scan(s, index + 1, negate))
  {
    SegmentFacts(seg, negate);
    TextThenUnit(s, prev, index, seg.written, seg.count, negate, Meaning(seg.count, seg.unit, negate));
  }

  /** What the loop needs of a readable segment. */
  lemma SegmentFacts(seg: Segment, negate: bool)
    requires Readable(seg)
    ensures 0 < |seg.written| && seg.unit in Separators
    ensures forall k :: 0 <= k < |seg.written| ==> seg.written[k] !in Separators
    ensures ParseInt32(Trim(seg.written)) == Some(seg.count)
    ensures StepOf(seg.unit, seg.count, negate) == Success(Meaning(seg.count, seg.unit, negate))
  {
    CountNonEmpty(seg.written);
    TableLetter(seg.unit);
    StepOfTable(seg.unit, seg.count, negate);
  }

  /** Non-empty text `f` without unit letters, read as `count`, then a unit
      letter the switch turns into `step`: the loop takes that step. */
  lemma TextThenUnit(s: string, prev: nat, index: nat, f: string, count: int, negate: bool, step: Step)
    requires index == prev + |f| && 0 < |f| && index < |s|
    requires s[prev..index] == f && s[index] in Separators
    requires forall k :: 0 <= k < |f| ==> f[k] !in Separators
    requires ParseInt32(Trim(f)) == Some(count)
    requires StepOf(s[index], count, negate) == Success(step)
    ensures Scan(s, prev, negate) == Prepend(step, Scan(s, index + 1, negate))
  {
    UnitAfter(s, prev, f, index, negate);
    SegmentAccepted(s, prev, index, count, negate, step);
  }

  /** Text that `Trim` reduces to nothing. */
  predicate AllWhite(t: string) {
    forall k :: 0 <= k < |t| ==> IsWhiteSpace(t[k])
  }

  /** Text without unit letters after the last segment ends the loop; it is
      accepted exactly when it is white space. */
  lemma TailOnly(s: string, prev: nat, tail: string, negate: bool)
    requires prev <= |s| && s[prev..] == tail
    requires forall k :: 0 <= k < |tail| ==> tail[k] !in Separators
    ensures Scan(s, prev, negate)
      == if AllWhite(tail)
         then Success([])
         else Failure(UnparsedData(tail))
  {
    assert forall k :: prev <= k < |s| ==> s[k] == tail[k - prev];
  }

  /** Where the text from `prev` is a rendered offset, its first segment ends
      at `next` and the rest of the offset follows. */
  lemma RenderSlices(s: string, prev: nat, segs: seq<Segment>, tail: string, index: nat)
    requires |segs| > 0
    requires prev <= |s| && s[prev..] == Render(segs) + tail
    requires index == prev + |segs[0].written|
    ensures index < |s|
    ensures s[prev..index] == segs[0].written && s[index] == segs[0].unit
    ensures s[index + 1..] == Render(segs[1..]) + tail
  {
    var next := index + 1;
    var head := segs[0].written + [segs[0].unit];
    assert s[prev..] == head + (Render(segs[1..]) + tail);
    assert s[next..] == s[prev..][|head|..];
    assert s[prev..next] == s[prev..][..|head|];
    SegmentSlices(s, prev, segs[0].written, segs[0].unit, next);
  }

  /** The first segment's step in front of the outcome for the rest. */
  lemma PrependMeaning(segs: seq<Segment>, tail: string, negate: bool, rest: Result<seq<Step>, ParseError>)
    requires WellFormed(segs) && |segs| > 0 && WellFormed(segs[1..])
    requires rest == if AllWhite(tail) then Success(Meanings(segs[1..], negate)) else Failure(UnparsedData(tail))
    ensures Prepend(Meaning(segs[0].count, segs[0].unit, negate), rest)
      == if AllWhite(tail) then Success(Meanings(segs, negate)) else Failure(UnparsedData(tail))
  {
  }

  /** A rendered offset followed by text without unit letters is read back
      segment by segment, and the trailing text is accepted exactly when it is
      white space. */
  lemma {:induction false} ScanRendered(s: string, prev: nat, segs: seq<Segment>, tail: string, negate: bool)
    requires WellFormed(segs)
    requires prev <= |s| && s[prev..] == Render(segs) + tail
    requires forall k :: 0 <= k < |tail| ==> tail[k] !in Separators
    ensures Scan(s, prev, negate)
      == if AllWhite(tail)
         then Success(Meanings(segs, negate))
         else Failure(UnparsedData(tail))
    decreases |segs|
  {
    if |segs| == 0 {
      assert s[prev..] == tail;
      TailOnly(s, prev, tail, negate);
    } else {
      var index := prev + |segs[0].written|;
      RenderSlices(s, prev, segs, tail, index);
      ScanRendered(s, index + 1, segs[1..], tail, negate);
      RenderedSegment(s, prev, segs[0], index, negate);
      PrependMeaning(segs, tail, negate, Scan(s, index + 1, negate));
    }
  }

  // ---------------------------------------------------------------------------
  // Whole offsets

  /** Text whose first character is neither white space nor a letter n/N is not
      the word "now". */
  lemma NotNow(s: string)
    requires |s| > 0 && !IsWhiteSpace(s[0]) && ToLowerChar(s[0]) != 'n'
    ensures ToLower(Trim(s)) != "now"
  {
    assert ToLower(Trim(s))[0] == ToLowerChar(s[0]);
  }

  /** Text with a character no integer may contain is not an integer. */
  lemma NotNumber(s: string, i: nat)
    requires i < |s| && !IsNumberChar(s[i])
    ensures ParseInt64(s).None? && ParseInt32(s).None?
  {
  }

  /** The text of a rendered offset starts with its first segment's text and
      unit letter. */
  lemma RenderStart(segs: seq<Segment>, tail: string)
    requires |segs| > 0
    ensures var s := Render(segs) + tail;
      && |s| > |segs[0].written|
      && (forall k :: 0 <= k < |segs[0].written| ==> s[k] == segs[0].written[k])
      && s[|segs[0].written|] == segs[0].unit
  {
    assert Render(segs) + tail == segs[0].written + ([segs[0].unit] + Render(segs[1..]) + tail);
  }

  /** Text that opens with a readable segment is neither "now" nor a number. */
  lemma FirstSegmentOpens(seg: Segment, s: string)
    requires Readable(seg)
    requires |s| > |seg.written| && s[|seg.written|] == seg.unit
    requires forall k :: 0 <= k < |seg.written| ==> s[k] == seg.written[k]
    ensures ToLower(Trim(s)) != "now" && ParseInt64(s).None? && ParseInt32(s).None?
  {
    var p := CountDigit(seg.written);
    DigitNotNow(s, p);
    TableLetter(seg.unit);
    NotNumber(s, |seg.written|);
  }

  /** A rendered offset followed by text without unit letters: `ParseTimeInterval`
      reads every segment back when the trailing text is white space, and
      reports the trailing text as unparsed otherwise. */
  lemma RenderedInterval(segs: seq<Segment>, tail: string, negate: bool, isDate: string -> bool)
    requires WellFormed(segs) && |segs| > 0
    requires forall k :: 0 <= k < |tail| ==> tail[k] !in Separators
    requires !isDate(Render(segs) + tail)
    ensures ParseTimeInterval(Render(segs) + tail, negate, isDate)
      == if AllWhite(tail)
         then Success(Shifted(Meanings(segs, negate)))
         else Failure(UnparsedData(tail))
  {
    var s := Render(segs) + tail;
    RenderStart(segs, tail);
    FirstSegmentOpens(segs[0], s);
    IntervalScanned(s, negate, isDate);
    assert s[0..] == s;
    ScanRendered(s, 0, segs, tail, negate);
  }

  /** `ParseTimeSpan` reads a rendered offset back with the signs as written,
      and the negating overload reads it with every sign flipped. */
  lemma RenderedSpan(segs: seq<Segment>, isDate: string -> bool)
    requires WellFormed(segs) && |segs| > 0
    requires !isDate(Render(segs))
    ensures ParseTimeSpan(Render(segs), isDate) == Success(Shifted(Meanings(segs, false)))
    ensures ParseTimeInterval(Render(segs), true, isDate) == Success(Shifted(Meanings(segs, true)))
  {
    assert Render(segs) + [] == Render(segs);
    RenderedInterval(segs, [], false, isDate);
    RenderedInterval(segs, [], true, isDate);
  }

  /** A unit letter in the first position is never consumed, because the loop
      only runs while the letter's position is greater than 0: the whole text
      is reported as unparsed. */
  lemma LeadingUnitRejected(s: string, negate: bool, isDate: string -> bool)
    requires |s| > 0 && s[0] in Separators && !isDate(s)
    ensures ParseTimeInterval(s, negate, isDate) == Failure(UnparsedData(s))
  {
    NotNow(s);
    NotNumber(s, 0);
    IntervalScanned(s, negate, isDate);
    IndexOfAnyAt(s, Separators, 0, 0);
    assert s[0..] == s;
  }

  /** 'H' splits the text but has no case in the switch: a count followed by
      'H' is always an invalid specifier. */
  lemma UpperHourRejected(count: int, rest: string, negate: bool, isDate: string -> bool)
    requires IsInt32(count) && !isDate(FormatInt(count) + "H" + rest)
    ensures ParseTimeInterval(FormatInt(count) + "H" + rest, negate, isDate) == Failure(InvalidSpecifier('H'))
  {
    var f := FormatInt(count);
    var s := f + "H" + rest;
    var index := |f|;
    assert s[0..index] == f && s[index] == 'H';
    FormatIsPlain(count);
    NotNow(s);
    NotNumber(s, index);
    IntervalScanned(s, negate, isDate);
    UnitAfter(s, 0, f, index, negate);
    CountParses(count);
    assert ParseInt32(Trim(s[0..index])) == Some(count);
    StepOfHour(count);
    SegmentUnitRejected(s, 0, index, count, InvalidSpecifier('H'));
  }

  /** A segment whose text before the unit letter is not an `int` stops the
      parse with that text, trimmed. */
  lemma BadSegmentRejected(t: string, u: char, rest: string, negate: bool, isDate: string -> bool)
    requires |t| > 0 && u in Separators
    requires forall k :: 0 <= k < |t| ==> t[k] !in Separators
    requires ParseInt32(Trim(t)).None?
    requires ToLower(Trim(t + [u] + rest)) != "now" && !isDate(t + [u] + rest)
    ensures ParseTimeInterval(t + [u] + rest, negate, isDate) == Failure(BadSegment(Trim(t)))
  {
    var s := t + [u] + rest;
    var index := |t|;
    assert s[0..index] == t && s[index] == u;
    NotNumber(s, index);
    IntervalScanned(s, negate, isDate);
    UnitAfter(s, 0, t, index, negate);
    SegmentRejected(s, 0, index);
  }

  /** Plain whole seconds, as `long.ToString()` writes them, are one step of
      that many seconds, negated under negation. */
  lemma PlainSeconds(l: int, negate: bool, isDate: string -> bool)
    requires IsInt64(l)
    ensures ParseTimeInterval(FormatInt(l), negate, isDate) == Success(Shifted([Step(Second, Signed(l, negate))]))
  {
    FormatIsPlain(l);
    NotNow(FormatInt(l));
    ParseFormat(l, Int64Min, Int64Max);
    SecondsParsed(FormatInt(l), l, negate, isDate);
  }

  // ---------------------------------------------------------------------------
  // 32-bit arithmetic in the switch

  /** Where the scaled count fits an `int`, the switch as written computes the
      step the unit table means. */
  lemma AsWrittenAgreesInRange(spec: char, factor: int, negate: bool)
    requires IsInt32(factor) && spec in UnitTable
    requires IsInt32(Meaning(factor, spec, negate).amount)
    ensures StepOfAsWritten(spec, factor, negate) == StepOf(spec, factor, negate)
  {
    StepOfTable(spec, factor, negate);
  }

  /** "613566757W": 613566757 * 7 = 4294967299 wraps to 3, so the switch as
      written adds three days where 613566757 weeks are meant. */
  lemma WeekCountWraps()
    ensures StepOfAsWritten('W', 613566757, false) == Success(Step(Day, 3))
    ensures StepOf('W', 613566757, false) == Success(Step(Day, 4294967299))
  {
    assert Wrap32(4294967299) == 3;
  }

  /** Negating the count `int.MinValue` wraps back to itself, so the negating
      overload moves the offset the same way as the forward one. */
  lemma NegatedMinimumWraps()
    ensures StepOfAsWritten('s', Int32Min, true) == Success(Step(Second, Int32Min))
    ensures StepOfAsWritten('s', Int32Min, false) == Success(Step(Second, Int32Min))
    ensures StepOf('s', Int32Min, true) == Success(Step(Second, 0x8000_0000))
  {
    assert Wrap32(0x8000_0000) == Int32Min;
  }
}

=== FILE: wrappers.dfy ===
/** Optional values and success/failure results, used wherever the C# code returns
    null or throws an exception. */
module Wrappers {

  /** A value that may be absent: the model of a C# null or of a `-1` "not found" index. */
  datatype Option<+T> = None | Some(value: T)

  /** Either a value or the error that the C# code would have thrown instead. */
  datatype Result<+T, +E> = Success(value: T) | Failure(error: E)
}
